=== FILE: README.md ===
# snui post buffering and content cache, in Dafny

snui is a desktop client for browsing a feed of posts. Posts arrive a page at
a time. The client keeps a cache of the posts' content, such as text bodies or
images. The cache is an LRU cache of 250 entries, keyed by each post's position
in the feed. Around the post the user is viewing, a window of neighbouring
posts is buffered: every post in the window that is not cached yet is entered
as *pending*, and its content is fetched in the background. When a fetch
completes, its pending entry is filled. The main panel shows the viewed post's
content, or "Loading.." while that content is not there.

This project models that core as pure Dafny functions and proves properties
about them:

- `Lru` (`lru.dfy`) is the LRU cache, as a recency-ordered entry sequence. It
  covers `contains`, `put` with eviction, `get` with promotion, `peek`,
  `clear` and the capacity bound.
- `Window` (`window.dfy`) is `current_buffer`, the window selector. It covers
  the `f32` side lengths rounded half away from zero, its four branches, and
  the slices that would panic (modelled as `None`).
- `Input` (`input.dfy`) covers key presses, key binds, the default table and
  the action lookup.
- `Config` (`config.dfy`) covers case-insensitive key-name parsing,
  `Options::from` (defaults, clamping, and binds with modifiers), and the
  file-config types.
- `Display` (`display.dfy`) is `create_display_string`, which counts
  characters when cutting but bytes when deciding on "...".
- `FeedState` (`state.dfy`) is the feed state of `src/state.rs`. It covers
  the posts, the filters, `buffer_posts`, `set_content`, `reset_feed`,
  `set_feed`, `extend_posts`, the content selection of `render_main_content`,
  and whole runs of these operations under the state invariant.
- `LegacyState` (`legacy.dfy`) is the older copy of the same operations in
  `src/config.rs`. That copy ignores the filters and does not check
  `set_feed`. Lemmas relate it to `FeedState`.

Fetching is modelled through its outputs. `BufferPosts` returns the new
state and the ids it hands to the fetcher, in dispatch order. A completed
fetch is a later `SetContent` call. The viewed index is a parameter.

Points where the code was followed as written:

- When the feed is longer than the buffer amount, the end-clamped window
  stops at `len - 1`, so the last post is buffered only from the interior
  branch (`Window.LastPostBuffered`). A shorter feed is buffered whole. When the focus
  is the last post and two or more posts are buffered ahead, the focus is not
  in its own window (`Window.FocusCovered`). The window is therefore not
  always a range around the focus.
- Both sides round up on a tie, so a window can hold `amount + 1` posts
  (`Window.OversizedWindow`).
- The comment on `buffer_ratio` says that amount 10 with ratio 0.8 buffers
  one post behind. The code buffers two (`Window.TenAtEightTenths`).
- `buffer_posts` checks the cache with `contains`, which does not promote.
  A later `put` in the same call can evict a window post checked earlier, and
  the next call fetches it again (`FeedState.RefetchAfterEviction`). Repeating
  the call is free exactly when the first call leaves the whole window
  cached (`FeedState.SecondCallFree`). That is guaranteed when the cache has
  room for the uncached window posts (`FeedState.BufferPostsIdempotent`),
  and it can also happen after an eviction that spares the window
  (`FeedState.EvictionYetSecondCallFree`).
- Within a single call, a window post that was cached when the call began
  is not always left alone. A `put` for an earlier window post can evict it
  before the loop reaches it. It is then fetched in that same call, and its
  resolved content is replaced by a pending entry
  (`FeedState.EvictedWithinOneCall`). So "posts already cached get no fetch
  and keep their value" fails only for a window post that an earlier `put`
  of the same call evicts. Each `put` evicts at most the oldest entry, so
  the promise holds for every cached post with at least as many older
  entries as the window has posts (`FeedState.DispatchSparesYoung`).
- "pagedown" parses to `Insert`, and there is no name for `Delete`.
- `KeyBind::new(key, [ctrl, shift, alt])` is called in `src/config.rs:170`,
  but `src/input.rs` does not define it. The model reads the three flags as
  control, shift and alt.

## Model

| member | source | states |
|---|---|---|
| Lru.Contains | src/state.rs:122 | `contains` is true exactly when the key has an entry, and it leaves the cache unchanged |
| Lru.Put | src/state.rs:123 | After `put`, the key holds the value and is most recent. The least recently used key is evicted only when a new key meets a full cache. Other entries keep their values. The cache stays well-formed and within capacity. |
| Lru.Get | src/state.rs:193 | `get` returns the stored value and makes a present key the most recent. It adds, removes and changes nothing. |
| Lru.New | src/state.rs:92 | A new cache of the given capacity is empty and well-formed |
| Lru.Clear | src/state.rs:99 | `clear` empties the cache and keeps its capacity |
| Lru.SizeBound | src/state.rs:92 | A cache never holds more keys than its capacity |
| Lru.RecentSurvivesNextPut | src/state.rs:193 | With capacity at least 2, the most recent key is never the one the next `put` evicts |
| Lru.GetProtects | src/state.rs:145 | A key read by `get` or `get_mut` survives the next `put` of any key |
| Lru.OldestAfterPut | src/state.rs:123 | The oldest entry after a `put` is the previous oldest, or the second oldest when that one was updated or evicted. The next `put` of a new key into the full cache evicts exactly that key. |
| Lru.PutKeepsOrder | src/state.rs:123 | `put` keeps the recency order of every pair of other keys it leaves, so later evictions still go oldest first |
| Lru.GetKeepsOrder | src/state.rs:193 | `get` moves only the key it reads. Every other pair of keys keeps its recency order. |
| Lru.TwoSlotScenario | src/state.rs:121-123 | With capacity 2, putting 1, 2, 3 leaves {2, 3}. A `contains` check of 1 does not save it, but a `get` of 1 makes 2 the evicted key. |
| Window.RoundToIndex | src/state.rs:65-66 | `round() as usize` gives the integer within 0.5 of x, and 0 for x ≤ 0 |
| Window.Ahead | src/state.rs:65 | `right_side` is at most `amount` for a ratio in [0, 1]. It is all of `amount` at ratio 1 and 0 at ratio 0 or below. |
| Window.Behind | src/state.rs:66 | `left_side` is at most `amount` for a ratio in [0, 1]. It is all of `amount` at ratio 0 and 0 at ratio 1 or above. |
| Window.SidesSum | src/state.rs:65-66 | For a ratio in [0, 1], each side is at most `amount`, and the two sides sum to `amount` or `amount + 1` |
| Window.CurrentBuffer | src/state.rs:64-79 | The window is the whole vector when it is short. Otherwise it is cut at 0 near the start, at `len - 1` near the end, and spans `Behind` to `Ahead` around idx in the interior. It is always within bounds, and a focus index inside the vector never panics. |
| Window.FocusCovered | src/state.rs:70-78 | For a long feed, the focus is in its window iff at least one post is buffered ahead and the focus is not the last post with two or more ahead |
| Window.LastPostBuffered | src/state.rs:74-77 | For a feed longer than the buffer amount, the last post is in the window iff idx + Ahead equals len |
| Window.WindowSize | src/state.rs:64-79 | A window holds at most `amount + 1` posts |
| Window.OversizedWindow | src/state.rs:65-66 | Amount 1 with ratio 0.5 gives a window of 2 posts |
| Window.TenAtThreeQuarters | src/state.rs:64-79 | Amount 10 with ratio 0.75 over 100 posts gives [47,58) at 50, [0,9) at 1, and [96,99) at 99, which excludes 99 |
| Window.TenAtEightTenths | src/config.rs:149-151 | Amount 10 with ratio 0.8 buffers 8 ahead and 2 behind |
| Input.DefaultBinds | src/input.rs:48-57 | The default table has exactly three binds: unmodified J to `PostUp`, K to `PostDown` and Enter to `OpenPost` |
| Input.Basic | src/input.rs:37-46 | `KeyPress::basic` is the key with no modifier |
| Input.ActionFor | src/input.rs:12-16 | The lookup succeeds iff exactly this press is bound, and returns the bound action |
| Input.DefaultActions | src/input.rs:48-57 | Under the defaults, only unmodified J, K and Enter resolve, to PostUp, PostDown and OpenPost |
| Input.ModifiedPressUnbound | src/input.rs:13-15 | Under the defaults, any press with a modifier resolves to nothing |
| Config.LowerChar | src/config.rs:363 | ASCII capitals fold to small letters and KELVIN SIGN folds to 'k'; nothing else changes |
| Config.Lower | src/config.rs:363 | Lower-casing is applied pointwise and keeps the length |
| Config.KeyNamed | src/config.rs:363-414 | No arm of the match yields PageDown or Delete, because "pagedown" maps to Insert |
| Config.ParseKey | src/config.rs:359-417 | A failure carries the name exactly as written. A success is never PageDown or Delete. |
| Config.LowerIdempotent | src/config.rs:363 | Lower-casing twice is lower-casing once |
| Config.LowerFixed | src/config.rs:363 | Small letters and digits are their own lower case |
| Config.CaseInsensitive | src/config.rs:362-363 | Names equal up to case parse alike, and a name parses iff its lower case does |
| Config.NameRoundTrip | src/config.rs:363-414 | Every key except PageDown and Delete parses back from its name. "pagedown" yields Insert and "delete" fails. |
| Config.ParseKeySound | src/config.rs:363-414 | A name parses only if its lower case is the yielded key's name, or is "pagedown" |
| Config.KeyNamedInverse | src/config.rs:364-413 | Each match arm's key has that arm's string as its name, except "pagedown" |
| Config.PageDownParsesToInsert | src/config.rs:412-413 | "PageDown" parses to Insert |
| Config.DeleteRejected | src/config.rs:409-414 | "Delete" is rejected with the name as written |
| Config.AnyIs | src/config.rs:164-166 | The `any` scan is true iff the modifier is listed |
| Config.BindFor | src/config.rs:159-171 | A simple entry binds the bare key. A detailed entry sets each flag iff its modifier is listed. |
| Config.NormaliseAmount | src/config.rs:179 | The buffer amount defaults to 25, lies in [1, 50], is kept within range, and is clamped outside it |
| Config.NormaliseRatio | src/config.rs:180 | The ratio defaults to 0.75, lies in [0, 1], is kept within range, and is clamped outside it |
| Config.BindEntry | src/config.rs:157-172 | One entry inserts its bind and overrides only that press |
| Config.BuildKeyBinds | src/config.rs:156-173 | Every entry is bound to its action. The bound presses are exactly the defaults plus the entries. A default that is not overridden keeps its action. |
| Config.OptionsFrom | src/config.rs:154-183 | Flags default to false and true. Amount and ratio are normalised. Every entry is honoured, and non-overridden defaults are kept. |
| Display.Utf8Len | src/impl_render.rs:35 | A character takes 1 to 4 bytes, and exactly 1 iff it is ASCII |
| Display.ByteLen | src/impl_render.rs:35 | The byte length is at least the character count, and equals it iff the text is ASCII |
| Display.DisplayString | src/impl_render.rs:32-40 | The result starts with the first `max_chars` characters. "..." is appended iff the byte length exceeds `max_chars`. A short text is returned unchanged. |
| Display.AsciiDisplay | src/impl_render.rs:32-40 | ASCII text is kept whole when it fits, and is otherwise cut to `max_chars` characters plus "..." |
| Display.EllipsisWithoutTruncation | src/impl_render.rs:33-36 | Text whose characters fit but whose bytes do not keeps every character and still gets "..." |
| Display.AccentedExample | src/impl_render.rs:32-40 | "é" with room for 1 becomes "é..." |
| FeedState.CacheBounded | src/state.rs:92 | Under the invariant, the content cache holds at most 250 entries |
| FeedState.New | src/state.rs:82-95 | A new state has the feed, no posts, no filters, an empty cache of 250, and a refresh mark, and satisfies the invariant |
| FeedState.ResetFeed | src/state.rs:96-103 | The new feed is set. Posts and cache are emptied, the refresh mark is set, and the invariant is re-established. |
| FeedState.SetFeed | src/state.rs:129-133 | Only without a feed: the feed is installed with page size 15, and nothing else changes |
| FeedState.Tag | src/state.rs:136-141 | New posts are tagged with consecutive positions |
| FeedState.ExtendPosts | src/state.rs:135-142 | Existing posts are unchanged. Each new post is tagged with its position. Only the posts change, and the invariant is preserved. |
| FeedState.FilterPosts | src/state.rs:151-161 | The stacked adaptors keep exactly the posts that pass every filter, and never more posts than they are given |
| FeedState.WorkingPosts | src/state.rs:104-106 | The working posts are exactly the posts that pass every active filter, and there are no more of them than posts |
| FeedState.Keep | src/state.rs:157 | One `filter` adaptor keeps exactly the accepted posts |
| FeedState.FilterIsConjunction | src/state.rs:151-161 | Stacking one adaptor per filter equals one pass that keeps posts passing every filter |
| FeedState.KeepAllSpec | src/state.rs:151-161 | The filtered posts are exactly those passing every filter, in their original order |
| FeedState.WorkingPostsSpec | src/state.rs:104-110 | The working posts are a subsequence of all posts, no more than `unfiltered_len` of them, and all posts when there are no filters |
| FeedState.Dispatch | src/state.rs:121-126 | The buffering loop keeps the cache well-formed at the same capacity |
| FeedState.DispatchCoverage | src/state.rs:121-126 | Only window posts are fetched, and every window post not cached beforehand is |
| FeedState.DispatchValues | src/state.rs:121-126 | New keys are only fetched ids, which stay pending. Entries that are not fetched keep their values. |
| FeedState.DispatchSparesYoung | src/state.rs:121-126 | A cached post with at least as many older entries as the window has posts is not fetched, and it keeps its value |
| FeedState.DispatchNoDuplicates | src/state.rs:121-126 | A window with increasing ids gets at most one fetch per post |
| FeedState.DispatchKeysWithRoom | src/state.rs:121-126 | With room for the uncached window posts, every window post ends up cached |
| FeedState.DispatchWithRoom | src/state.rs:121-126 | With room for the uncached window posts, the fetches are exactly those posts, in order |
| FeedState.BufferPosts | src/state.rs:112-127 | Only the cache changes. Fetches are window posts over the working posts, and every uncached window post is fetched. Fetched entries are pending. Others keep their values. A cached post with at least as many older entries as the window has posts is neither fetched nor changed. |
| FeedState.BufferPostsKeepsInv | src/state.rs:112-127 | Under the invariant there is no duplicate fetch, and the invariant survives |
| FeedState.BufferPostsIdempotent | src/state.rs:112-127 | With room for the uncached window posts, buffering again right away fetches nothing. This includes a full cache that already holds the window. |
| FeedState.EvictionYetSecondCallFree | src/state.rs:121-126 | With a full cache, a call that evicts a post outside the window leaves the whole window cached, so the next call fetches nothing |
| FeedState.SecondCallFree | src/state.rs:112-127 | A second call fetches nothing iff the first call left the whole window cached |
| FeedState.BufferPostsWithRoom | src/state.rs:112-127 | With room for the uncached window posts, the fetches are exactly those posts, and the whole window ends up cached |
| FeedState.RefetchAfterEviction | src/state.rs:121-123 | With a full cache, one call can evict a window post it just skipped, and the next call fetches it again |
| FeedState.EvictedWithinOneCall | src/state.rs:121-126 | With a full cache, one call can evict a resolved window post before reaching it. It then fetches that post in the same call and leaves it pending. |
| FeedState.SetContent | src/state.rs:144-149 | A pending entry gets the content and becomes most recent. An evicted id is a no-op. Other entries keep their values and their recency order, and the invariant is kept. |
| FeedState.MainContent | src/state.rs:183-201 | The viewed working post's content is shown if resolved, and "Loading.." otherwise. The lookup promotes the entry and changes no value. The other entries keep their recency order. The cache keeps its keys and capacity, so the invariant is preserved. |
| FeedState.Step | src/state.rs:96-201 | One operation. It panics (`None`) exactly on a second feed, an out-of-range window slice or content for an already resolved post. Options and filters never change. |
| FeedState.Run | src/state.rs:96-201 | Any sequence of operations that does not panic preserves the invariant. The operations are `reset_feed`, `set_feed`, `extend_posts`, `buffer_posts`, `set_content` and the cache lookup of `render_main_content`. |
| FeedState.StepKeepsInv | src/state.rs:96-201 | Each of those operations preserves the invariant |
| FeedState.RunBounded | src/state.rs:92-201 | After any run, the cache holds at most 250 entries, all ids of current posts |
| LegacyState.LegacyBufferPosts | src/config.rs:68-83 | Fetches are window posts over all posts, and every uncached window post is fetched. Only the cache changes. |
| LegacyState.LegacySetFeed | src/config.rs:85-88 | Any existing feed is replaced by the new feed with page size 15 |
| LegacyState.LegacyMainContent | src/config.rs:90-105 | The viewed post is looked up among all posts. It shows resolved content, or "Loading..". |
| LegacyState.AgreeWithoutFilters | src/config.rs:46-105 | With no filters, the window, the buffering and the content selection agree with `FeedState` |
| LegacyState.SetFeedAgrees | src/config.rs:85-88 | Without an existing feed, both `set_feed` versions agree |
| LegacyState.FiltersIgnored | src/config.rs:69-83 | With a filter that hides every post, `FeedState` fetches nothing while the legacy version fetches post 0 |

## Left out

- Background fetching (`src/fetch.rs`) is not modelled: its threads, channels and message handling. A fetch is an id in `BufferPosts`'s result, and its completion is a `SetContent` call.
- Rendering and the UI components are not modelled: the panels, `render_summary_component`, `render_feed_component`, and `feed_component.reset()` in `reset_feed`. The viewed index is a parameter.
- `src/keyboard.rs`, `src/image_manager.rs`, `src/main.rs` and `src/view.rs` are not part of this model.
- `Options::default` is not modelled, because it reads `./config.toml` from disk. TOML and serde decoding are also out: the `Mods` aliases, the untagged `ConfigKey`, and `Key`'s `try_from` wiring.
- The conversion of `Key` into the toolkit's key type is not modelled separately: one `Key` type stands for both enumerations.
- Window.RoundToIndex: the ratio is an exact real, so `f32` rounding error and NaN are not modelled.
- Config.NormaliseRatio: a NaN ratio is not modelled. In the source, `f32::min` returns its non-NaN operand, so a configured `nan` becomes 1.0 and then stays 1.0 through `max(0)`.
- FeedState.Inv: integers are unbounded. `usize` overflow of `idx + right_side` and the `u32` disable-binds counter are not modelled.
- Config.LowerChar: only the lower-casing that can matter for matching is modelled (ASCII and KELVIN SIGN). Other characters stay as they are; their real lower case is never a key name.
- The filters' `HashMap<u32, fn>` is a sequence of predicates. Its iteration order does not affect the result (`FeedState.FilterIsConjunction`).
- `Box<dyn Render>` content is the `Content` datatype; drawing it is not modelled.
- Config.OptionsFrom requires distinct keys in the file's bind table. The source's `HashMap<Key, ConfigKey>` guarantees this.
- FeedState.SetContent requires the entry not to be resolved yet, which the source asserts. `FeedState.Step` turns that panic into `None`.
- FeedState.SetFeed requires no feed to be set, which the source asserts. `FeedState.Step` turns that panic into `None`.
- FeedState.BufferPosts requires the window slice to be in range. Slices that would panic are `None` in `Window.CurrentBuffer` and in `FeedState.Step`.
- LegacyState: the older copies of `extend_posts` and `set_content` match `FeedState`'s and are not repeated. Its `current_buffer` is the same function as `Window.CurrentBuffer`.

=== FILE: config.dfy ===
/**
 * User configuration: parsing key names and turning the file configuration
 * into normalised options (defaults, clamping, key binds with modifiers).
 */
module Config {
  import opened Wrappers
  import opened Input

  /* ---------- key names ---------- */

  /** The error of `Key::try_from`, carrying the string as it was given. */
  datatype NoMatchingKey = NoMatchingKey(name: string)

  /** One character lower-cased as `str::to_lowercase` does, for the purpose
      of matching key names: ASCII capitals fold to small letters, and KELVIN
      SIGN, the one non-ASCII character whose lower case is ASCII, folds to
      'k'. Every other character is left alone; its lower case is not ASCII, so
      it can match no key name either way. */
  function LowerChar(c: char): (r: char)
    ensures 'A' <= c <= 'Z' ==> r as int == c as int + 32
    ensures c == '\U{212A}' ==> r == 'k'
    ensures r != c ==> ('A' <= c <= 'Z' || c == '\U{212A}')
  {
    if 'A' <= c <= 'Z' then (c as int + 32) as char
    else if c == '\U{212A}' then 'k'
    else c
  }

  function Lower(s: string): (r: string)
    ensures |r| == |s|
    ensures forall i :: 0 <= i < |s| ==> r[i] == LowerChar(s[i])
  {
    if |s| == 0 then [] else [LowerChar(s[0])] + Lower(s[1..])
  }

  /** The arms of the match in `Key::try_from`, over an already lower-cased
      name. "pagedown" maps to `Insert`, and there is no arm for "delete". */
  function KeyNamed(name: string): (r: Option<Key>)
    // "pagedown" is taken by Insert, so no name yields PageDown or Delete.
    ensures r.Some? ==> r.value != PageDown && r.value != Delete
  {
    match name
    case "a" => Some(A)
    case "b" => Some(B)
    case "c" => Some(C)
    case "d" => Some(D)
    case "e" => Some(E)
    case "f" => Some(F)
    case "g" => Some(G)
    case "h" => Some(H)
    case "i" => Some(I)
    case "j" => Some(J)
    case "k" => Some(K)
    case "l" => Some(L)
    case "m" => Some(M)
    case "n" => Some(N)
    case "o" => Some(O)
    case "p" => Some(P)
    case "q" => Some(Q)
    case "r" => Some(R)
    case "s" => Some(S)
    case "t" => Some(T)
    case "u" => Some(U)
    case "v" => Some(V)
    case "w" => Some(W)
    case "x" => Some(X)
    case "y" => Some(Y)
    case "z" => Some(Z)
    case "0" => Some(Num0)
    case "1" => Some(Num1)
    case "2" => Some(Num2)
    case "3" => Some(Num3)
    case "4" => Some(Num4)
    case "5" => Some(Num5)
    case "6" => Some(Num6)
    case "7" => Some(Num7)
    case "8" => Some(Num8)
    case "9" => Some(Num9)
    case "escape" => Some(Escape)
    case "tab" => Some(Tab)
    case "backspace" => Some(Backspace)
    case "enter" => Some(Enter)
    case "space" => Some(Space)
    case "down" => Some(ArrowDown)
    case "up" => Some(ArrowUp)
    case "left" => Some(ArrowLeft)
    case "right" => Some(ArrowRight)
    case "insert" => Some(Insert)
    case "home" => Some(Home)
    case "end" => Some(End)
    case "pageup" => Some(PageUp)
    case "pagedown" => Some(Insert)
    case _ => None
  }

  /** `Key::try_from(String)`: case-insensitive key-name parsing. */
  function ParseKey(value: string): (r: Result<Key, NoMatchingKey>)
    // A failure reports the name exactly as written, not lower-cased.
    ensures r.Err? ==> r.error == NoMatchingKey(value)
    // No name reaches PageDown or Delete.
    ensures r.Ok? ==> r.value != PageDown && r.value != Delete
  {
    match KeyNamed(Lower(value))
    case Some(k) => Ok(k)
    case None => Err(NoMatchingKey(value))
  }

  /** The name each key is written as in a configuration file; PageDown and
      Delete get the names one would expect, which the parser does not honour. */
  function Name(k: Key): string
  {
    match k
    case ArrowDown => "down"  case ArrowLeft => "left"
    case ArrowRight => "right"  case ArrowUp => "up"
    case Escape => "escape"  case Tab => "tab"  case Backspace => "backspace"
    case Enter => "enter"  case Space => "space"
    case Insert => "insert"  case Delete => "delete"  case Home => "home"
    case End => "end"  case PageUp => "pageup"  case PageDown => "pagedown"
    case Num0 => "0"  case Num1 => "1"  case Num2 => "2"  case Num3 => "3"
    case Num4 => "4"  case Num5 => "5"  case Num6 => "6"  case Num7 => "7"
    case Num8 => "8"  case Num9 => "9"
    case A => "a"  case B => "b"  case C => "c"  case D => "d"  case E => "e"
    case F => "f"  case G => "g"  case H => "h"  case I => "i"  case J => "j"
    case K => "k"  case L => "l"  case M => "m"  case N => "n"  case O => "o"
    case P => "p"  case Q => "q"  case R => "r"  case S => "s"  case T => "t"
    case U => "u"  case V => "v"  case W => "w"  case X => "x"  case Y => "y"
    case Z => "z"
  }

  /** Lower-casing twice is lower-casing once. */
  lemma {:induction false} LowerIdempotent(s: string)
    ensures Lower(Lower(s)) == Lower(s)
  {
    if |s| > 0 {
      LowerIdempotent(s[1..]);
      assert Lower(s)[1..] == Lower(s[1..]);
    }
  }

  /** Names written in small letters and digits are their own lower case. */
  lemma LowerFixed(s: string)
    requires forall i :: 0 <= i < |s| ==> 'a' <= s[i] <= 'z' || '0' <= s[i] <= '9'
    ensures Lower(s) == s
  {
  }

  /** Parsing ignores case: two names equal up to lower-casing parse to the same
      key, and a name parses exactly when its lower-cased form does. */
  lemma CaseInsensitive(s: string, t: string)
    requires Lower(s) == Lower(t)
    ensures ParseKey(s).Ok? <==> ParseKey(t).Ok?
    ensures ParseKey(s).Ok? ==> ParseKey(s).value == ParseKey(t).value
    ensures ParseKey(Lower(s)).Ok? <==> ParseKey(s).Ok?
  {
    LowerIdempotent(s);
  }

  /** Every key but PageDown and Delete parses back from its name; "pagedown"
      yields Insert and "delete" is rejected. */
  lemma NameRoundTrip(k: Key)
    ensures k != PageDown && k != Delete ==> ParseKey(Name(k)) == Ok(k)
    ensures k == PageDown ==> ParseKey(Name(k)) == Ok(Insert)
    ensures k == Delete ==> ParseKey(Name(k)).Err?
  {
    NamesAreLowerCase(k);
    NamesMatched(k);
  }

  /** Conversely, a name parses only if its lower case is the name of the
      key it yields, or is "pagedown". */
  lemma ParseKeySound(value: string)
    ensures ParseKey(value).Ok? ==>
              Lower(value) == Name(ParseKey(value).value) || Lower(value) == "pagedown"
  {
    KeyNamedInverse(Lower(value));
  }

  lemma KeyNamedInverse(name: string)
    ensures KeyNamed(name).Some? ==> name == Name(KeyNamed(name).value) || name == "pagedown"
  {
    if |name| == 1 {
      SingleCharNamesInverse(name);
    } else {
      WordNamesInverse(name);
    }
  }

  lemma SingleCharNamesInverse(name: string)
    requires |name| == 1
    ensures KeyNamed(name).Some? ==> name == Name(KeyNamed(name).value)
  {
    var c := name[0];
    if 'a' <= c <= 'g' {
      LettersAToGInverse(name);
    } else if 'h' <= c <= 'm' {
      LettersHToMInverse(name);
    } else if 'n' <= c <= 't' {
      LettersNToTInverse(name);
    } else if 'u' <= c <= 'z' {
      LettersUToZInverse(name);
    } else {
      OtherCharNamesInverse(name);
    }
  }

  lemma LettersAToGInverse(name: string)
    requires |name| == 1 && 'a' <= name[0] <= 'g'
    ensures KeyNamed(name).Some? ==> name == Name(KeyNamed(name).value)
  {
    assert name == [name[0]];
  }

  lemma LettersHToMInverse(name: string)
    requires |name| == 1 && 'h' <= name[0] <= 'm'
    ensures KeyNamed(name).Some? ==> name == Name(KeyNamed(name).value)
  {
    assert name == [name[0]];
  }

  lemma LettersNToTInverse(name: string)
    requires |name| == 1 && 'n' <= name[0] <= 't'
    ensures KeyNamed(name).Some? ==> name == Name(KeyNamed(name).value)
  {
    assert name == [name[0]];
  }

  lemma LettersUToZInverse(name: string)
    requires |name| == 1 && 'u' <= name[0] <= 'z'
    ensures KeyNamed(name).Some? ==> name == Name(KeyNamed(name).value)
  {
    assert name == [name[0]];
  }

  lemma OtherCharNamesInverse(name: string)
    requires |name| == 1 && !('a' <= name[0] <= 'z')
    ensures KeyNamed(name).Some? ==> name == Name(KeyNamed(name).value)
  {
    assert name == [name[0]];
  }

  lemma WordNamesInverse(name: string)
    requires |name| != 1
    ensures KeyNamed(name).Some? ==> name == Name(KeyNamed(name).value) || name == "pagedown"
  {
  }

  /** Key names are written in small letters and digits, so lower-casing
      leaves them alone. */
  lemma NamesAreLowerCase(k: Key)
    ensures Lower(Name(k)) == Name(k)
  {
    if k in {A, B, C, D, E, F, G, H, I, J, K, L, M} {
      FirstLetterNamesLower(k);
    } else if k in {N, O, P, Q, R, S, T, U, V, W, X, Y, Z} {
      LastLetterNamesLower(k);
    } else if k in {Num0, Num1, Num2, Num3, Num4, Num5, Num6, Num7, Num8, Num9} {
      DigitNamesLower(k);
    } else if k in {ArrowDown, ArrowLeft, ArrowRight, ArrowUp} {
      ArrowNamesLower(k);
    } else if k in {Escape, Tab, Backspace, Enter} {
      ControlNamesLower(k);
    } else if k in {Space, Insert, Delete, Home} {
      EditNamesLower(k);
    } else {
      PageNamesLower(k);
    }
  }

  lemma FirstLetterNamesLower(k: Key)
    requires k in {A, B, C, D, E, F, G, H, I, J, K, L, M}
    ensures Lower(Name(k)) == Name(k)
  {
    LowerFixed(Name(k));
  }

  lemma LastLetterNamesLower(k: Key)
    requires k in {N, O, P, Q, R, S, T, U, V, W, X, Y, Z}
    ensures Lower(Name(k)) == Name(k)
  {
    LowerFixed(Name(k));
  }

  lemma DigitNamesLower(k: Key)
    requires k in {Num0, Num1, Num2, Num3, Num4, Num5, Num6, Num7, Num8, Num9}
    ensures Lower(Name(k)) == Name(k)
  {
    LowerFixed(Name(k));
  }

  lemma ArrowNamesLower(k: Key)
    requires k in {ArrowDown, ArrowLeft, ArrowRight, ArrowUp}
    ensures Lower(Name(k)) == Name(k)
  {
    LowerFixed(Name(k));
  }

  lemma ControlNamesLower(k: Key)
    requires k in {Escape, Tab, Backspace, Enter}
    ensures Lower(Name(k)) == Name(k)
  {
    LowerFixed(Name(k));
  }

  lemma EditNamesLower(k: Key)
    requires k in {Space, Insert, Delete, Home}
    ensures Lower(Name(k)) == Name(k)
  {
    LowerFixed(Name(k));
  }

  lemma PageNamesLower(k: Key)
    requires k in {End, PageUp, PageDown}
    ensures Lower(Name(k)) == Name(k)
  {
    LowerFixed(Name(k));
  }

  /** The parser's match maps each key's name back to the key, except
      "pagedown" (to Insert) and "delete" (no arm). */
  lemma NamesMatched(k: Key)
    ensures KeyNamed(Name(k)) == if k == PageDown then Some(Insert)
                                 else if k == Delete then None else Some(k)
  {
    if k in {A, B, C, D, E, F, G, H, I, J, K, L, M} {
      FirstLettersNamed(k);
    } else if k in {N, O, P, Q, R, S, T, U, V, W, X, Y, Z} {
      LastLettersNamed(k);
    } else if k in {Num0, Num1, Num2, Num3, Num4, Num5, Num6, Num7, Num8, Num9} {
      DigitsNamed(k);
    } else if k in {ArrowDown, ArrowLeft, ArrowRight, ArrowUp, Escape, Tab, Backspace} {
      MotionKeysNamed(k);
    } else {
      EditingKeysNamed(k);
    }
  }

  lemma FirstLettersNamed(k: Key)
    requires k in {A, B, C, D, E, F, G, H, I, J, K, L, M}
    ensures KeyNamed(Name(k)) == Some(k)
  {
  }

  lemma LastLettersNamed(k: Key)
    requires k in {N, O, P, Q, R, S, T, U, V, W, X, Y, Z}
    ensures KeyNamed(Name(k)) == Some(k)
  {
  }

  lemma DigitsNamed(k: Key)
    requires k in {Num0, Num1, Num2, Num3, Num4, Num5, Num6, Num7, Num8, Num9}
    ensures KeyNamed(Name(k)) == Some(k)
  {
  }

  lemma MotionKeysNamed(k: Key)
    requires k in {ArrowDown, ArrowLeft, ArrowRight, ArrowUp, Escape, Tab, Backspace}
    ensures KeyNamed(Name(k)) == Some(k)
  {
  }

  lemma EditingKeysNamed(k: Key)
    requires k in {Enter, Space, Insert, Delete, Home, End, PageUp, PageDown}
    ensures KeyNamed(Name(k)) == if k == PageDown then Some(Insert)
                                 else if k == Delete then None else Some(k)
  {
  }

  /** A mixed-case "PageDown" parses, to Insert. */
  lemma PageDownParsesToInsert()
    ensures ParseKey("PageDown") == Ok(Insert)
  {
    LowerPageDown();
    assert KeyNamed("pagedown") == Some(Insert);
  }

  lemma LowerPageDown()
    ensures Lower("PageDown") == "pagedown"
  {
    var s := "PageDown";
    assert Lower(s) == [LowerChar('P'), LowerChar('a'), LowerChar('g'), LowerChar('e'),
                        LowerChar('D'), LowerChar('o'), LowerChar('w'), LowerChar('n')];
  }

  /** "Delete" is rejected, and the error carries it as written. */
  lemma DeleteRejected()
    ensures ParseKey("Delete") == Err(NoMatchingKey("Delete"))
  {
    LowerDelete();
    assert KeyNamed("delete") == None;
  }

  lemma LowerDelete()
    ensures Lower("Delete") == "delete"
  {
    var s := "Delete";
    assert Lower(s) == [LowerChar('D'), LowerChar('e'), LowerChar('l'), LowerChar('e'),
                        LowerChar('t'), LowerChar('e')];
  }

  /* ---------- options ---------- */

  datatype Mods = Alt | Shift | Ctrl

  datatype ConfigAction = ConfigAction(action: Action, modifiers: seq<Mods>)

  /** A binding in the file: a bare action, or an action with modifiers. */
  datatype ConfigKey = Simple(action: Action) | Detailed(config: ConfigAction)

  /** The configuration file. `binds` lists the file's key table in the order
      the loop visits it; the table has one entry per key. */
  datatype FileConfig = FileConfig(
    binds: seq<(Key, ConfigKey)>,
    immediatePosts: Option<bool>,
    showTitleBars: Option<bool>,
    bufferAmount: Option<nat>,
    bufferRatio: Option<real>)

  datatype Options = Options(
    keybinds: KeyBinds,
    immediatePosts: bool,
    showTitleBars: bool,
    bufferAmount: nat,
    bufferRatio: real)

  const DefaultBufferAmount: nat := 25
  const MaxBufferAmount: nat := 50
  const DefaultBufferRatio: real := 0.75

  /** `m.iter().any(|m| *m == wanted)`. */
  function AnyIs(mods: seq<Mods>, wanted: Mods): (b: bool)
    ensures b <==> wanted in mods
  {
    if |mods| == 0 then false
    else mods[0] == wanted || AnyIs(mods[1..], wanted)
  }

  /** The bind a file entry inserts: a simple entry binds the bare key, a
      detailed one sets each modifier flag iff that modifier is listed. */
  function BindFor(key: Key, ck: ConfigKey): (b: KeyBind)
    ensures b.press.key == key
    ensures ck.Simple? ==> b.press == Basic(key)
    ensures ck.Detailed? ==>
              && (b.press.control <==> Ctrl in ck.config.modifiers)
              && (b.press.shift <==> Shift in ck.config.modifiers)
              && (b.press.alt <==> Alt in ck.config.modifiers)
  {
    match ck
    case Simple(_) => KeyBind(Basic(key))
    case Detailed(cfg) =>
      var ctrl := AnyIs(cfg.modifiers, Ctrl);
      var shift := AnyIs(cfg.modifiers, Shift);
      var alt := AnyIs(cfg.modifiers, Alt);
      KeyBind(KeyPress(key, shift, ctrl, alt))
  }

  function ActionOf(ck: ConfigKey): Action
  {
    match ck
    case Simple(a) => a
    case Detailed(cfg) => cfg.action
  }

  /** `buffer_amount`: 25 when absent, then clamped into [1, 50]. */
  function NormaliseAmount(v: Option<nat>): (r: nat)
    ensures 1 <= r <= MaxBufferAmount
    ensures v.None? ==> r == DefaultBufferAmount
    ensures v.Some? && 1 <= v.value <= MaxBufferAmount ==> r == v.value
    ensures v.Some? && v.value > MaxBufferAmount ==> r == MaxBufferAmount
    ensures v == Some(0) ==> r == 1
  {
    var a := v.UnwrapOr(DefaultBufferAmount);
    var capped := if a < MaxBufferAmount then a else MaxBufferAmount;
    if capped > 1 then capped else 1
  }

  /** `buffer_ratio`: 0.75 when absent, then clamped into [0, 1]. */
  function NormaliseRatio(v: Option<real>): (r: real)
    ensures 0.0 <= r <= 1.0
    ensures v.None? ==> r == DefaultBufferRatio
    ensures v.Some? && 0.0 <= v.value <= 1.0 ==> r == v.value
    ensures v.Some? && v.value > 1.0 ==> r == 1.0
    ensures v.Some? && v.value < 0.0 ==> r == 0.0
  {
    var x := v.UnwrapOr(DefaultBufferRatio);
    var capped := if x < 1.0 then x else 1.0;
    if capped > 0.0 then capped else 0.0
  }

  /** No two entries of the file's key table share a key. */
  predicate DistinctEntryKeys(binds: seq<(Key, ConfigKey)>)
  {
    forall i, j :: 0 <= i < j < |binds| ==> binds[i].0 != binds[j].0
  }

  /** The binds the first `n` entries of the file insert. */
  function EntryBinds(binds: seq<(Key, ConfigKey)>, n: nat): set<KeyBind>
    requires n <= |binds|
  {
    set i | 0 <= i < n :: BindFor(binds[i].0, binds[i].1)
  }

  /**
   * The bind-building loop of `Options::from`: starting from `start` (the
   * default table), each entry inserts its bind, overwriting whatever was
   * bound to the same press before it.
   */
  method BuildKeyBinds(start: KeyBinds, binds: seq<(Key, ConfigKey)>) returns (kb: KeyBinds)
    requires DistinctEntryKeys(binds)
    // Every entry of the file is bound to its action.
    ensures forall i :: 0 <= i < |binds| ==>
              BindFor(binds[i].0, binds[i].1) in kb.binds
              && kb.binds[BindFor(binds[i].0, binds[i].1)] == ActionOf(binds[i].1)
    // Nothing but the starting table and the file's entries is bound.
    ensures kb.binds.Keys == start.binds.Keys + EntryBinds(binds, |binds|)
    // A starting bind that no entry overrides keeps its action.
    ensures forall b :: b in start.binds && b !in EntryBinds(binds, |binds|) ==>
              kb.binds[b] == start.binds[b]
  {
    kb := start;
    var n := 0;
    while n < |binds|
      invariant 0 <= n <= |binds|
      invariant forall i :: 0 <= i < n ==>
                  BindFor(binds[i].0, binds[i].1) in kb.binds
                  && kb.binds[BindFor(binds[i].0, binds[i].1)] == ActionOf(binds[i].1)
      invariant kb.binds.Keys == start.binds.Keys + EntryBinds(binds, n)
      invariant forall b :: b in start.binds && b !in EntryBinds(binds, n) ==>
                  kb.binds[b] == start.binds[b]
    {
      BindEntryKeepsEntries(kb, binds, n);
      BindEntryKeepsStart(start, kb, binds, n);
      kb := BindEntry(kb, binds, n);
      n := n + 1;
    }
  }

  /** One more entry: the binds of the entries so far keep their actions. */
  lemma BindEntryKeepsEntries(kb: KeyBinds, binds: seq<(Key, ConfigKey)>, n: nat)
    requires DistinctEntryKeys(binds)
    requires n < |binds|
    requires forall i :: 0 <= i < n ==>
               BindFor(binds[i].0, binds[i].1) in kb.binds
               && kb.binds[BindFor(binds[i].0, binds[i].1)] == ActionOf(binds[i].1)
    ensures forall i :: 0 <= i < n + 1 ==>
              BindFor(binds[i].0, binds[i].1) in BindEntry(kb, binds, n).binds
              && BindEntry(kb, binds, n).binds[BindFor(binds[i].0, binds[i].1)] == ActionOf(binds[i].1)
  {
    var r := BindEntry(kb, binds, n);
    var nb := BindFor(binds[n].0, binds[n].1);
    forall i | 0 <= i < n + 1
      ensures BindFor(binds[i].0, binds[i].1) in r.binds
      ensures r.binds[BindFor(binds[i].0, binds[i].1)] == ActionOf(binds[i].1)
    {
      if i < n {
        var bi := BindFor(binds[i].0, binds[i].1);
        assert bi in kb.binds && bi != nb;
        assert r.binds[bi] == kb.binds[bi] == ActionOf(binds[i].1);
      }
    }
  }

  /** One more entry: the bound presses grow by that entry's bind, and
      starting binds no entry overrides keep their actions. */
  lemma BindEntryKeepsStart(start: KeyBinds, kb: KeyBinds, binds: seq<(Key, ConfigKey)>, n: nat)
    requires DistinctEntryKeys(binds)
    requires n < |binds|
    requires kb.binds.Keys == start.binds.Keys + EntryBinds(binds, n)
    requires forall b :: b in start.binds && b !in EntryBinds(binds, n) ==>
               kb.binds[b] == start.binds[b]
    ensures BindEntry(kb, binds, n).binds.Keys == start.binds.Keys + EntryBinds(binds, n + 1)
    ensures forall b :: b in start.binds && b !in EntryBinds(binds, n + 1) ==>
              BindEntry(kb, binds, n).binds[b] == start.binds[b]
  {
    var r := BindEntry(kb, binds, n);
    var nb := BindFor(binds[n].0, binds[n].1);
    assert r.binds.Keys == start.binds.Keys + EntryBinds(binds, n + 1);
    forall b | b in start.binds && b !in EntryBinds(binds, n + 1)
      ensures r.binds[b] == start.binds[b]
    {
      assert b != nb && b !in EntryBinds(binds, n);
    }
  }

  /** One turn of the bind-building loop: entry `n` inserts its bind; the
      binds of earlier entries, with other keys, keep their actions. */
  function BindEntry(kb: KeyBinds, binds: seq<(Key, ConfigKey)>, n: nat): (r: KeyBinds)
    requires DistinctEntryKeys(binds)
    requires n < |binds|
    ensures r.binds.Keys == kb.binds.Keys + {BindFor(binds[n].0, binds[n].1)}
    ensures r.binds[BindFor(binds[n].0, binds[n].1)] == ActionOf(binds[n].1)
    ensures forall b :: b in kb.binds && b != BindFor(binds[n].0, binds[n].1) ==>
              r.binds[b] == kb.binds[b]
    ensures forall i :: 0 <= i < n ==>
              BindFor(binds[i].0, binds[i].1) != BindFor(binds[n].0, binds[n].1)
    ensures EntryBinds(binds, n + 1) == EntryBinds(binds, n) + {BindFor(binds[n].0, binds[n].1)}
  {
    var (key, details) := binds[n];
    assert EntryBinds(binds, n + 1) == EntryBinds(binds, n) + {BindFor(key, details)};
    KeyBinds(kb.binds[BindFor(key, details) := ActionOf(details)])
  }

  /** `Options::from(FileConfig)`. */
  method OptionsFrom(fc: FileConfig) returns (o: Options)
    requires DistinctEntryKeys(fc.binds)
    ensures o.immediatePosts == fc.immediatePosts.UnwrapOr(false)
    ensures o.showTitleBars == fc.showTitleBars.UnwrapOr(true)
    ensures 1 <= o.bufferAmount <= MaxBufferAmount
    ensures fc.bufferAmount.None? ==> o.bufferAmount == DefaultBufferAmount
    ensures 0.0 <= o.bufferRatio <= 1.0
    ensures fc.bufferRatio.None? ==> o.bufferRatio == DefaultBufferRatio
    ensures o.bufferAmount == NormaliseAmount(fc.bufferAmount)
    ensures o.bufferRatio == NormaliseRatio(fc.bufferRatio)
    // Every entry of the file is honoured.
    ensures forall i :: 0 <= i < |fc.binds| ==>
              ActionFor(o.keybinds, BindFor(fc.binds[i].0, fc.binds[i].1).press)
                == Some(ActionOf(fc.binds[i].1))
    // The bound presses are the defaults and the file's, nothing else; a
    // default the file does not override keeps its action.
    ensures o.keybinds.binds.Keys == DefaultBinds().binds.Keys + EntryBinds(fc.binds, |fc.binds|)
    ensures forall b :: b in DefaultBinds().binds && b !in EntryBinds(fc.binds, |fc.binds|) ==>
              ActionFor(o.keybinds, b.press) == ActionFor(DefaultBinds(), b.press)
  {
    var kb := BuildKeyBinds(DefaultBinds(), fc.binds);
    o := Options(kb,
                 fc.immediatePosts.UnwrapOr(false),
                 fc.showTitleBars.UnwrapOr(true),
                 NormaliseAmount(fc.bufferAmount),
                 NormaliseRatio(fc.bufferRatio));
  }
}

=== FILE: display.dfy ===
/**
 * `create_display_string`: shortening a post title or URL for the summary
 * panel. It keeps at most `maxChars` characters, but decides whether to append
 * "..." by the string's length in UTF-8 bytes, not in characters.
 */
module Display {

  /** The number of bytes UTF-8 uses for one character. */
  function Utf8Len(c: char): (n: nat)
    ensures 1 <= n <= 4
    ensures n == 1 <==> c as int < 0x80
  {
    if c as int < 0x80 then 1
    else if c as int < 0x800 then 2
    else if c as int < 0x1_0000 then 3
    else 4
  }

  predicate IsAscii(s: string)
  {
    forall i :: 0 <= i < |s| ==> s[i] as int < 0x80
  }

  /** `String::len`: the length in UTF-8 bytes. It is never below the
      character count, and equals it exactly for ASCII text. */
  function ByteLen(s: string): (n: nat)
    ensures n >= |s|
    ensures n == |s| <==> IsAscii(s)
  {
    if |s| == 0 then 0
    else
      assert IsAscii(s) <==> s[0] as int < 0x80 && IsAscii(s[1..]) by {
        if s[0] as int < 0x80 && IsAscii(s[1..]) {
          forall i | 0 <= i < |s| ensures s[i] as int < 0x80 {
            if i > 0 { assert s[i] == s[1..][i - 1]; }
          }
        }
      }
      Utf8Len(s[0]) + ByteLen(s[1..])
  }

  const Ellipsis: string := "..."

  function Min(a: nat, b: nat): nat
  {
    if a <= b then a else b
  }

  /** `create_display_string(original, max_chars)`. */
  function DisplayString(original: string, maxChars: nat): (r: string)
    // The result starts with the first min(maxChars, |original|) characters.
    ensures |r| >= Min(maxChars, |original|)
    ensures r[..Min(maxChars, |original|)] == original[..Min(maxChars, |original|)]
    // "..." follows exactly when the byte length exceeds maxChars.
    ensures ByteLen(original) > maxChars <==>
              r == original[..Min(maxChars, |original|)] + Ellipsis
    ensures ByteLen(original) <= maxChars ==> r == original
    ensures |r| <= maxChars + 3
  {
    var kept := original[..Min(maxChars, |original|)];
    if ByteLen(original) > maxChars then kept + Ellipsis else kept
  }

  /** For ASCII text bytes and characters agree: the text is returned whole
      when it fits, and cut to maxChars characters plus "..." when it does not. */
  lemma AsciiDisplay(s: string, maxChars: nat)
    requires IsAscii(s)
    ensures |s| <= maxChars ==> DisplayString(s, maxChars) == s
    ensures |s| > maxChars ==> DisplayString(s, maxChars) == s[..maxChars] + Ellipsis
  {
  }

  /** Non-ASCII text can keep every character and still get "...": whenever
      the characters fit but the bytes do not. */
  lemma EllipsisWithoutTruncation(s: string, maxChars: nat)
    requires |s| <= maxChars < ByteLen(s)
    ensures DisplayString(s, maxChars) == s + Ellipsis
    ensures !IsAscii(s)
  {
    assert s[..|s|] == s;
  }

  /** "é" is one character but two bytes, so with room for one character it is
      shown as "é...". */
  lemma AccentedExample()
    ensures DisplayString("é", 1) == "é..."
  {
    assert ByteLen("é") == 2;
    EllipsisWithoutTruncation("é", 1);
  }
}

=== FILE: input.dfy ===
/**
 * Key presses, key bindings and the action lookup.
 *
 * `Key` is the key set shared by the configuration and the UI toolkit's key
 * enumeration; the two enumerations correspond one to one, so a single type
 * stands for both.
 */
module Input {
  import opened Wrappers

  datatype Key =
    | ArrowDown | ArrowLeft | ArrowRight | ArrowUp
    | Escape | Tab | Backspace | Enter | Space
    | Insert | Delete | Home | End | PageUp | PageDown
    | Num0 | Num1 | Num2 | Num3 | Num4 | Num5 | Num6 | Num7 | Num8 | Num9
    | A | B | C | D | E | F | G | H | I | J | K | L | M
    | N | O | P | Q | R | S | T | U | V | W | X | Y | Z

  /** What a bound key press does. */
  datatype Action = PostUp | PostDown | OpenPost

  /** A press of `key` with the modifiers held at the time. */
  datatype KeyPress = KeyPress(key: Key, shift: bool, control: bool, alt: bool)

  /** A key press that has an action tied to it; equal exactly when the key and
      all three modifiers are equal. */
  datatype KeyBind = KeyBind(press: KeyPress)

  /** A map from key binds to actions. */
  datatype KeyBinds = KeyBinds(binds: map<KeyBind, Action>)

  /** `KeyPress::basic`: the key with no modifier held. */
  function Basic(key: Key): (p: KeyPress)
    ensures p.key == key
    ensures !p.shift && !p.control && !p.alt
  {
    KeyPress(key, false, false, false)
  }

  /** `KeyBinds::default`: J moves up, K moves down, Enter opens. */
  function DefaultBinds(): (kb: KeyBinds)
    // Exactly three binds: the three listed below.
    ensures |kb.binds| == 3
    ensures KeyBind(Basic(J)) in kb.binds && kb.binds[KeyBind(Basic(J))] == PostUp
    ensures KeyBind(Basic(K)) in kb.binds && kb.binds[KeyBind(Basic(K))] == PostDown
    ensures KeyBind(Basic(Enter)) in kb.binds && kb.binds[KeyBind(Basic(Enter))] == OpenPost
  {
    KeyBinds(map[KeyBind(Basic(J)) := PostUp,
                 KeyBind(Basic(K)) := PostDown,
                 KeyBind(Basic(Enter)) := OpenPost])
  }

  /** `KeyBinds::action`: the action bound to exactly this press, if any. */
  function ActionFor(kb: KeyBinds, press: KeyPress): (r: Option<Action>)
    ensures r.Some? <==> KeyBind(press) in kb.binds
    ensures r.Some? ==> kb.binds[KeyBind(press)] == r.value
  {
    if KeyBind(press) in kb.binds then Some(kb.binds[KeyBind(press)]) else None
  }

  /** Under the default table a press resolves iff it is J, K or Enter with no
      modifier, and then to the listed action. */
  lemma DefaultActions(press: KeyPress)
    ensures ActionFor(DefaultBinds(), press) ==
              if press == Basic(J) then Some(PostUp)
              else if press == Basic(K) then Some(PostDown)
              else if press == Basic(Enter) then Some(OpenPost)
              else None
  {
    if press == Basic(J) || press == Basic(K) || press == Basic(Enter) {
      DefaultBound();
    } else {
      DefaultUnbound(press);
    }
  }

  /** The three default presses resolve to their actions. */
  lemma DefaultBound()
    ensures ActionFor(DefaultBinds(), Basic(J)) == Some(PostUp)
    ensures ActionFor(DefaultBinds(), Basic(K)) == Some(PostDown)
    ensures ActionFor(DefaultBinds(), Basic(Enter)) == Some(OpenPost)
  {
  }

  /** Every other press is unbound by default. */
  lemma DefaultUnbound(press: KeyPress)
    requires press != Basic(J) && press != Basic(K) && press != Basic(Enter)
    ensures ActionFor(DefaultBinds(), press) == None
  {
  }

  /** Any modifier makes the lookup miss under the defaults: shift+J is unbound. */
  lemma ModifiedPressUnbound(press: KeyPress)
    requires press.shift || press.control || press.alt
    ensures ActionFor(DefaultBinds(), press) == None
  {
    DefaultActions(press);
  }
}

=== FILE: legacy.dfy ===
/**
 * The older copy of the state operations kept next to the options code. It
 * buffers and renders over the unfiltered post list, and `set_feed` does not
 * check for an existing feed. Its `extend_posts` and `set_content` are the same
 * as the feed state's and are not repeated here.
 */
module LegacyState {
  import opened Wrappers
  import Lru
  import Window
  import opened FeedState

  /** The window this version computes: over all posts, filters ignored. */
  function LegacySpan(s: State, viewed: nat): Option<Window.Span>
  {
    Window.CurrentBuffer(|s.posts|, viewed, s.options.bufferAmount, s.options.bufferRatio)
  }

  function LegacyWindow(s: State, viewed: nat): seq<ViewablePost>
    requires LegacySpan(s, viewed).Some?
  {
    var span := LegacySpan(s, viewed).value;
    s.posts[span.lo..span.hi]
  }

  /** `buffer_posts` over the unfiltered posts. */
  function LegacyBufferPosts(s: State, viewed: nat): (r: (State, seq<PostId>))
    requires Lru.Valid(s.cache)
    requires LegacySpan(s, viewed).Some?
    ensures r.0 == s.(cache := r.0.cache)
    ensures Lru.Valid(r.0.cache) && r.0.cache.capacity == s.cache.capacity
    ensures forall id :: id in r.1 ==> id in Ids(LegacyWindow(s, viewed))
    ensures forall p :: p in LegacyWindow(s, viewed) && p.postId !in Lru.Keys(s.cache) ==> p.postId in r.1
  {
    var window := LegacyWindow(s, viewed);
    DispatchCoverage(s.cache, window);
    var d := Dispatch(s.cache, window);
    (s.(cache := d.0), d.1)
  }

  /** `set_feed` without the check: an existing feed is replaced. */
  function LegacySetFeed(s: State, feed: PostFeed): (r: State)
    ensures r.feed.Some? && r.feed.value.source == feed.source
    ensures r.feed.value.limit == FeedPageLimit
    ensures r == s.(feed := r.feed)
  {
    s.(feed := Some(feed.(limit := FeedPageLimit)))
  }

  /** The content selection of this version's `render_main_content`: the
      viewed post is looked up among all posts, filters ignored. */
  function LegacyMainContent(s: State, viewed: nat): (r: (State, Content))
    requires Lru.Valid(s.cache)
    ensures viewed < |s.posts| && Resolved(s.cache, s.posts[viewed].postId) ==>
              r.1 == Lru.Peek(s.cache, s.posts[viewed].postId).value.value
    ensures !(viewed < |s.posts| && Resolved(s.cache, s.posts[viewed].postId)) ==>
              r.1 == Placeholder
    ensures forall k :: Lru.Peek(r.0.cache, k) == Lru.Peek(s.cache, k)
    ensures Lru.Keys(r.0.cache) == Lru.Keys(s.cache) && Lru.Valid(r.0.cache)
    ensures r.0 == s.(cache := r.0.cache)
  {
    if viewed < |s.posts| then
      var got := Lru.Get(s.cache, s.posts[viewed].postId);
      var shown := if got.1.Some? && got.1.value.Some? then got.1.value.value else Placeholder;
      (s.(cache := got.0), shown)
    else (s, Placeholder)
  }

  /** With no active filter both versions buffer, select content and install
      a first feed identically. */
  lemma AgreeWithoutFilters(s: State, viewed: nat)
    requires Lru.Valid(s.cache)
    requires s.activeFilters == []
    ensures LegacySpan(s, viewed) == BufferSpan(s, viewed)
    ensures LegacySpan(s, viewed).Some? ==> LegacyBufferPosts(s, viewed) == BufferPosts(s, viewed)
    ensures LegacyMainContent(s, viewed) == MainContent(s, viewed)
  {
    assert WorkingPosts(s) == s.posts;
  }

  /** Installing a feed agrees with the checked version wherever that one
      does not panic. */
  lemma SetFeedAgrees(s: State, feed: PostFeed)
    requires s.feed.None?
    ensures LegacySetFeed(s, feed) == SetFeed(s, feed)
  {
  }

  lemma {:induction false} KeepNothing(posts: seq<ViewablePost>, f: Filter)
    requires forall p :: !f(p)
    ensures Keep(posts, f) == []
  {
    if |posts| > 0 {
      KeepNothing(posts[1..], f);
    }
  }

  /** With a filter that hides every post, the checked version buffers
      nothing while this version still fetches the first post of a short
      feed. */
  lemma FiltersIgnored(s: State, viewed: nat)
    requires Inv(s)
    requires |s.activeFilters| == 1
    requires forall p :: !s.activeFilters[0](p)
    requires 0 < |s.posts| <= s.options.bufferAmount
    requires Lru.Keys(s.cache) == {}
    ensures BufferSpan(s, viewed) == Some(Window.Span(0, 0))
    ensures BufferPosts(s, viewed).1 == []
    ensures 0 in LegacyBufferPosts(s, viewed).1
  {
    var f := s.activeFilters[0];
    assert s.activeFilters[..0] == [];
    assert FilterPosts(s.posts, s.activeFilters[..0]) == s.posts;
    assert WorkingPosts(s) == Keep(s.posts, f);
    KeepNothing(s.posts, f);
    assert BufferWindow(s, viewed) == [];
    assert LegacyWindow(s, viewed) == s.posts;
    assert s.posts[0] in LegacyWindow(s, viewed);
  }
}

=== FILE: lru.dfy ===
/**
 * An abstract model of the `lru` crate's `LruCache` as the feed state uses it:
 * a fixed capacity and a sequence of key/value entries ordered from the least
 * recently used (index 0) to the most recently used (last index).
 *
 * Only the semantics the callers rely on are modelled: `put` inserts or
 * updates and promotes; `get` / `get_mut` promote; `contains` and `peek` do
 * not; `clear` empties; inserting a fresh key into a full cache first evicts
 * the least recently used entry, whatever its value.
 */
module Lru {
  import opened Wrappers

  datatype Cache<K, V> = Cache(capacity: nat, entries: seq<(K, V)>)

  /* ---------- entry sequences ---------- */

  /** The keys of an entry sequence. */
  function KeysOf<K(==,!new), V>(es: seq<(K, V)>): set<K>
  {
    if |es| == 0 then {} else {es[0].0} + KeysOf(es[1..])
  }

  /** No key occurs twice. */
  predicate DistinctKeys<K(==,!new), V>(es: seq<(K, V)>)
  {
    |es| == 0 || (es[0].0 !in KeysOf(es[1..]) && DistinctKeys(es[1..]))
  }

  /** The value stored under `k`, looked up without touching recency. */
  function Lookup<K(==,!new), V>(es: seq<(K, V)>, k: K): (r: Option<V>)
    ensures r.Some? <==> k in KeysOf(es)
  {
    if |es| == 0 then None
    else if es[0].0 == k then Some(es[0].1)
    else Lookup(es[1..], k)
  }

  /** The entries with the one for `k` taken out, order otherwise kept. */
  function Without<K(==,!new), V>(es: seq<(K, V)>, k: K): (r: seq<(K, V)>)
    ensures KeysOf(r) == KeysOf(es) - {k}
    ensures DistinctKeys(es) ==> DistinctKeys(r)
    ensures DistinctKeys(es) && k in KeysOf(es) ==> |r| == |es| - 1
    ensures k !in KeysOf(es) ==> r == es
    ensures forall k' :: k' != k ==> Lookup(r, k') == Lookup(es, k')
  {
    if |es| == 0 then []
    else if es[0].0 == k then Without(es[1..], k)
    else [es[0]] + Without(es[1..], k)
  }

  lemma {:induction false} KeysOfAppend<K(!new), V>(a: seq<(K, V)>, b: seq<(K, V)>)
    ensures KeysOf(a + b) == KeysOf(a) + KeysOf(b)
  {
    if |a| > 0 {
      assert (a + b)[1..] == a[1..] + b;
      KeysOfAppend(a[1..], b);
    } else {
      assert a + b == b;
    }
  }

  lemma {:induction false} LookupAppend<K(!new), V>(a: seq<(K, V)>, b: seq<(K, V)>, k: K)
    ensures Lookup(a + b, k) == if k in KeysOf(a) then Lookup(a, k) else Lookup(b, k)
  {
    if |a| > 0 {
      assert (a + b)[1..] == a[1..] + b;
      LookupAppend(a[1..], b, k);
    } else {
      assert a + b == b;
    }
  }

  lemma {:induction false} DistinctAppendOne<K(!new), V>(a: seq<(K, V)>, e: (K, V))
    requires DistinctKeys(a)
    requires e.0 !in KeysOf(a)
    ensures DistinctKeys(a + [e])
  {
    if |a| > 0 {
      assert (a + [e])[1..] == a[1..] + [e];
      DistinctAppendOne(a[1..], e);
      KeysOfAppend(a[1..], [e]);
    } else {
      assert a + [e] == [e];
    }
  }

  lemma {:induction false} DistinctCardinality<K(!new), V>(es: seq<(K, V)>)
    requires DistinctKeys(es)
    ensures |KeysOf(es)| == |es|
  {
    if |es| > 0 {
      DistinctCardinality(es[1..]);
    }
  }

  /** The position of `k` in an entry sequence, counted from the oldest. */
  function IndexOf<K(==,!new), V>(es: seq<(K, V)>, k: K): (i: nat)
    requires k in KeysOf(es)
    ensures i < |es| && es[i].0 == k
  {
    if es[0].0 == k then 0 else 1 + IndexOf(es[1..], k)
  }

  /** `a` was used less recently than `b`. */
  predicate Before<K(==,!new), V>(es: seq<(K, V)>, a: K, b: K)
  {
    a in KeysOf(es) && b in KeysOf(es) && IndexOf(es, a) < IndexOf(es, b)
  }

  /** Taking out `k` moves every later entry one place towards the front and
      leaves the earlier ones where they were. */
  lemma {:induction false} IndexWithout<K(!new), V>(es: seq<(K, V)>, k: K, a: K)
    requires DistinctKeys(es)
    requires a != k && a in KeysOf(es)
    ensures a in KeysOf(Without(es, k))
    ensures IndexOf(Without(es, k), a) ==
              if k in KeysOf(es) && IndexOf(es, k) < IndexOf(es, a)
              then IndexOf(es, a) - 1 else IndexOf(es, a)
  {
    if es[0].0 != k && es[0].0 != a {
      var w := Without(es[1..], k);
      IndexWithout(es[1..], k, a);
      assert ([es[0]] + w)[1..] == w;
    }
  }

  /** Appending an entry leaves the positions of the others unchanged. */
  lemma {:induction false} IndexAppend<K(!new), V>(es: seq<(K, V)>, e: (K, V), a: K)
    requires a in KeysOf(es)
    ensures a in KeysOf(es + [e])
    ensures IndexOf(es + [e], a) == IndexOf(es, a)
  {
    KeysOfAppend(es, [e]);
    if es[0].0 != a {
      assert (es + [e])[1..] == es[1..] + [e];
      IndexAppend(es[1..], e, a);
    }
  }

  /** Dropping the oldest entry keeps the order of the rest. */
  lemma BeforeDropFirst<K(!new), V>(es: seq<(K, V)>, a: K, b: K)
    requires |es| > 0 && a != es[0].0 && b != es[0].0
    ensures Before(es[1..], a, b) <==> Before(es, a, b)
  {
  }

  /** Taking out `k` keeps the order of every other pair. */
  lemma BeforeWithout<K(!new), V>(es: seq<(K, V)>, k: K, a: K, b: K)
    requires DistinctKeys(es)
    requires a != k && b != k
    ensures Before(Without(es, k), a, b) <==> Before(es, a, b)
  {
    if a in KeysOf(es) && b in KeysOf(es) {
      IndexWithout(es, k, a);
      IndexWithout(es, k, b);
      if k in KeysOf(es) {
        assert IndexOf(es, k) != IndexOf(es, a) && IndexOf(es, k) != IndexOf(es, b);
      }
    }
  }

  /** Appending an entry keeps the order of the pairs already there. */
  lemma BeforeAppend<K(!new), V>(es: seq<(K, V)>, e: (K, V), a: K, b: K)
    requires a in KeysOf(es) && b in KeysOf(es)
    ensures Before(es + [e], a, b) <==> Before(es, a, b)
  {
    IndexAppend(es, e, a);
    IndexAppend(es, e, b);
  }

  /* ---------- the cache ---------- */

  /** What every `LruCache` satisfies: a positive capacity, at most that many
      entries, one entry per key. */
  predicate Valid<K(==,!new), V>(c: Cache<K, V>)
  {
    c.capacity >= 1 && |c.entries| <= c.capacity && DistinctKeys(c.entries)
  }

  function Keys<K(==,!new), V>(c: Cache<K, V>): set<K>
  {
    KeysOf(c.entries)
  }

  /** `LruCache::peek`: the value under `k`, no promotion. */
  function Peek<K(==,!new), V>(c: Cache<K, V>, k: K): Option<V>
  {
    Lookup(c.entries, k)
  }

  /** The key used most recently. */
  function MostRecent<K(==,!new), V>(c: Cache<K, V>): K
    requires |c.entries| > 0
  {
    c.entries[|c.entries| - 1].0
  }

  /** `LruCache::new(capacity)`. */
  function New<K(==,!new), V>(capacity: nat): (c: Cache<K, V>)
    requires capacity >= 1
    ensures Valid(c) && c.capacity == capacity
    ensures Keys(c) == {}
  {
    Cache(capacity, [])
  }

  /** `LruCache::clear`: drops every entry, keeps the capacity. */
  function Clear<K(==,!new), V>(c: Cache<K, V>): (r: Cache<K, V>)
    requires Valid(c)
    ensures Valid(r) && r.capacity == c.capacity
    ensures Keys(r) == {}
  {
    Cache(c.capacity, [])
  }

  /** `LruCache::contains`: membership test; recency is not touched. */
  function Contains<K(==,!new), V>(c: Cache<K, V>, k: K): (b: bool)
    ensures b <==> k in Keys(c)
    ensures b <==> Peek(c, k).Some?
  {
    Lookup(c.entries, k).Some?
  }

  /** The key a `put` of `k` pushes out: the least recently used one, and only
      when `k` is new and the cache is full. */
  function Evicted<K(==,!new), V>(c: Cache<K, V>, k: K): Option<K>
  {
    if k !in Keys(c) && |c.entries| >= c.capacity && |c.entries| > 0
    then Some(c.entries[0].0) else None
  }

  /** `LruCache::put`: insert or update `k`, make it the most recent entry,
      evicting the least recently used entry when a new key meets a full cache. */
  function Put<K(==,!new), V>(c: Cache<K, V>, k: K, v: V): (r: Cache<K, V>)
    requires Valid(c)
    ensures Valid(r) && r.capacity == c.capacity
    ensures Peek(r, k) == Some(v)
    ensures |r.entries| > 0 && MostRecent(r) == k
    ensures forall k' :: k' != k ==>
              Peek(r, k') == (if Evicted(c, k) == Some(k') then None else Peek(c, k'))
    ensures Evicted(c, k).Some? ==> Keys(r) == Keys(c) - {Evicted(c, k).value} + {k}
    ensures Evicted(c, k).None? ==> Keys(r) == Keys(c) + {k}
    ensures |r.entries| == if k in Keys(c) then |c.entries|
                           else if |c.entries| < c.capacity then |c.entries| + 1
                           else c.capacity
  {
    var es := c.entries;
    var kept := if k in KeysOf(es) then Without(es, k)
                else if |es| >= c.capacity then es[1..]
                else es;
    assert k !in KeysOf(kept) && DistinctKeys(kept) by {
      if k !in KeysOf(es) && |es| >= c.capacity {
        assert es == [es[0]] + es[1..];
      }
    }
    DistinctAppendOne(kept, (k, v));
    KeysOfAppend(kept, [(k, v)]);
    forall k' ensures Lookup(kept + [(k, v)], k') ==
                      (if k' == k then Some(v) else Lookup(kept, k')) {
      LookupAppend(kept, [(k, v)], k');
    }
    Cache(c.capacity, kept + [(k, v)])
  }

  /** `LruCache::get` (and `get_mut`): the value under `k`; a present key
      becomes the most recent entry. Nothing is added or removed. */
  function Get<K(==,!new), V>(c: Cache<K, V>, k: K): (r: (Cache<K, V>, Option<V>))
    requires Valid(c)
    ensures Valid(r.0) && r.0.capacity == c.capacity
    ensures r.1 == Peek(c, k)
    ensures Keys(r.0) == Keys(c) && |r.0.entries| == |c.entries|
    ensures forall k' :: Peek(r.0, k') == Peek(c, k')
    ensures k in Keys(c) ==> MostRecent(r.0) == k
  {
    match Lookup(c.entries, k)
    case None => (c, None)
    case Some(v) =>
      var kept := Without(c.entries, k);
      DistinctAppendOne(kept, (k, v));
      KeysOfAppend(kept, [(k, v)]);
      forall k' ensures Lookup(kept + [(k, v)], k') ==
                        (if k' == k then Some(v) else Lookup(kept, k')) {
        LookupAppend(kept, [(k, v)], k');
      }
      (Cache(c.capacity, kept + [(k, v)]), Some(v))
  }

  /** The cache never holds more entries than its capacity, counted as keys. */
  lemma SizeBound<K(!new), V>(c: Cache<K, V>)
    requires Valid(c)
    ensures |Keys(c)| <= c.capacity
  {
    DistinctCardinality(c.entries);
  }

  lemma {:induction false} KeysOfHas<K(!new), V>(es: seq<(K, V)>, i: nat)
    requires i < |es|
    ensures es[i].0 in KeysOf(es)
  {
    if i > 0 {
      KeysOfHas(es[1..], i - 1);
    }
  }

  /** With room for two or more entries, the most recent key is never the
      one the next `put` evicts. */
  lemma RecentSurvivesNextPut<K(!new), V>(c: Cache<K, V>)
    requires Valid(c) && c.capacity >= 2
    requires |c.entries| > 0
    ensures forall k' :: Evicted(c, k') != Some(MostRecent(c))
  {
    if |c.entries| >= 2 {
      KeysOfHas(c.entries[1..], |c.entries| - 2);
    }
  }

  /** A `get` of a cached key shields it from the eviction a following `put`
      of any key may cause. */
  lemma GetProtects<K(!new), V>(c: Cache<K, V>, k: K, k': K, v: V)
    requires Valid(c) && c.capacity >= 2
    requires k in Keys(c)
    ensures k in Keys(Put(Get(c, k).0, k', v))
  {
    RecentSurvivesNextPut(Get(c, k).0);
  }

  /** Taking out a key other than the oldest keeps the oldest entry first;
      taking out the oldest one leaves the second oldest first. */
  lemma WithoutFront<K(!new), V>(es: seq<(K, V)>, k: K)
    requires DistinctKeys(es) && |es| > 0
    ensures es[0].0 != k ==> |Without(es, k)| > 0 && Without(es, k)[0] == es[0]
    ensures es[0].0 == k ==> Without(es, k) == es[1..]
  {
  }

  /** A `put` keeps the recency order of the entries it leaves in place: the
      oldest entry afterwards is the oldest before, or, when the `put`
      updated or evicted that entry, the second oldest; and that key is the
      one the following `put` of a new key into the full cache evicts. */
  lemma OldestAfterPut<K(!new), V>(c: Cache<K, V>, k: K, v: V)
    requires Valid(c)
    requires |Put(c, k, v).entries| >= 2
    ensures var next := if c.entries[0].0 == k || Evicted(c, k).Some?
                        then c.entries[1].0 else c.entries[0].0;
            && Put(c, k, v).entries[0].0 == next
            && forall k' :: k' !in Keys(Put(c, k, v)) && |Put(c, k, v).entries| >= c.capacity ==>
                 Evicted(Put(c, k, v), k') == Some(next)
  {
    var es := c.entries;
    if k in KeysOf(es) {
      WithoutFront(es, k);
    } else if |es| >= c.capacity {
      assert Evicted(c, k).Some?;
    }
  }

  /** `put` keeps the recency order of every pair of entries it leaves in
      place, so the entries keep being evicted oldest first. */
  lemma PutKeepsOrder<K(!new), V>(c: Cache<K, V>, k: K, v: V, a: K, b: K)
    requires Valid(c)
    requires a != k && b != k
    requires a in Keys(Put(c, k, v)) && b in Keys(Put(c, k, v))
    ensures Before(Put(c, k, v).entries, a, b) <==> Before(c.entries, a, b)
  {
    var es := c.entries;
    var kept := if k in KeysOf(es) then Without(es, k)
                else if |es| >= c.capacity then es[1..]
                else es;
    assert Put(c, k, v).entries == kept + [(k, v)];
    KeysOfAppend(kept, [(k, v)]);
    BeforeAppend(kept, (k, v), a, b);
    if k in KeysOf(es) {
      BeforeWithout(es, k, a, b);
    } else if |es| >= c.capacity {
      BeforeDropFirst(es, a, b);
    }
  }

  /** `get` of a present key moves only that key: every other pair keeps its
      recency order. */
  lemma GetKeepsOrder<K(!new), V>(c: Cache<K, V>, k: K, a: K, b: K)
    requires Valid(c)
    requires a != k && b != k
    ensures Before(Get(c, k).0.entries, a, b) <==> Before(c.entries, a, b)
  {
    if k in Keys(c) && a in Keys(c) && b in Keys(c) {
      var kept := Without(c.entries, k);
      var v := Lookup(c.entries, k).value;
      assert Get(c, k).0.entries == kept + [(k, v)];
      BeforeAppend(kept, (k, v), a, b);
      BeforeWithout(c.entries, k, a, b);
    }
  }

  /** `GetKeepsOrder` for every pair at once. */
  lemma GetKeepsAllOrder<K(!new), V>(c: Cache<K, V>, k: K)
    requires Valid(c)
    ensures forall a, b :: a != k && b != k ==>
              (Before(Get(c, k).0.entries, a, b) <==> Before(c.entries, a, b))
  {
    forall a, b | a != k && b != k
      ensures Before(Get(c, k).0.entries, a, b) <==> Before(c.entries, a, b)
    {
      GetKeepsOrder(c, k, a, b);
    }
  }

  /** `get_mut` of a present key followed by a write to it: the other pairs
      keep their recency order. */
  lemma UpdateKeepsAllOrder<K(!new), V>(c: Cache<K, V>, k: K, v: V)
    requires Valid(c) && k in Keys(c)
    ensures forall a, b :: a != k && b != k ==>
              (Before(Put(Get(c, k).0, k, v).entries, a, b) <==> Before(c.entries, a, b))
  {
    var g := Get(c, k).0;
    forall a, b | a != k && b != k
      ensures Before(Put(g, k, v).entries, a, b) <==> Before(c.entries, a, b)
    {
      GetKeepsOrder(c, k, a, b);
      if a in Keys(Put(g, k, v)) && b in Keys(Put(g, k, v)) {
        PutKeepsOrder(g, k, v, a, b);
      }
    }
  }

  /** Capacity 2: after putting 1, 2 and 3 only 2 and 3 remain. A `contains`
      check of 1 before the third put does not change that, while a `get`
      of 1 makes 2 the one evicted. */
  lemma TwoSlotScenario()
    ensures var c := Put(Put(New<int, string>(2), 1, "a"), 2, "b");
            && Contains(c, 1)
            && Keys(Put(c, 3, "c")) == {2, 3}
            && Keys(Put(Get(c, 1).0, 3, "c")) == {1, 3}
  {
    var c0 := New<int, string>(2);
    var c1 := Put(c0, 1, "a");
    var c := Put(c1, 2, "b");
    assert Keys(c) == {1, 2} && |c.entries| == 2;
    assert c.entries[0].0 == 1 by {
      KeysOfHas(c.entries, 0);
      assert c.entries[1].0 == 2;
      assert c.entries[0].0 != c.entries[1].0 by {
        KeysOfHas(c.entries[1..], 0);
      }
    }
    assert Evicted(c, 3) == Some(1);
    var g := Get(c, 1).0;
    assert g.entries[1].0 == 1;
    assert g.entries[0].0 == 2 by {
      KeysOfHas(g.entries, 0);
      assert g.entries[0].0 != g.entries[1].0 by {
        KeysOfHas(g.entries[1..], 0);
      }
    }
    assert Evicted(g, 3) == Some(2);
  }
}

=== FILE: state.dfy ===
/**
 * The feed state: the fetched posts, the active filters over them, and the
 * content cache that the window selector keeps filled around the viewed post.
 *
 * Operations are pure: each returns the new state, and `BufferPosts` also
 * returns the ids it hands to the fetcher (one background fetch each), in the
 * order it dispatches them.
 */
module FeedState {
  import opened Wrappers
  import Lru
  import Window
  import Config

  type PostId = nat

  /** A fetched post; the fields are the ones the panels show. */
  datatype Post = Post(title: string, url: string, selftext: string, score: int)

  /** A post tagged with its position in the feed; the position is its cache key. */
  datatype ViewablePost = ViewablePost(postId: PostId, inner: Post)

  /** Resolved, renderable content of a post. */
  datatype Content = Text(body: string) | Image(width: nat, height: nat) | Unsupported

  /** An active filter: a predicate over posts. */
  type Filter = ViewablePost -> bool

  /** The post feed being paged through; `limit` is the page size. */
  datatype PostFeed = PostFeed(source: string, limit: nat)

  /** Post id to content; `None` marks a fetch in flight (pending). */
  type ContentCache = Lru.Cache<PostId, Option<Content>>

  const CacheCapacity: nat := 250
  const FeedPageLimit: nat := 15
  const LoadingText: string := "Loading.."

  datatype State = State(
    feed: Option<PostFeed>,
    posts: seq<ViewablePost>,
    activeFilters: seq<Filter>,
    cache: ContentCache,
    numRequestDisableBinds: nat,
    markForRefresh: bool,
    options: Config.Options)

  /* ---------- invariant ---------- */

  function Ids(posts: seq<ViewablePost>): set<PostId>
  {
    set p | p in posts :: p.postId
  }

  /** Each post's id is its position in the feed. */
  predicate PostsIndexed(posts: seq<ViewablePost>)
  {
    forall i :: 0 <= i < |posts| ==> posts[i].postId == i
  }

  /** Ids strictly increase along the sequence (so no id repeats). */
  predicate IdsIncreasing(posts: seq<ViewablePost>)
  {
    forall i, j :: 0 <= i < j < |posts| ==> posts[i].postId < posts[j].postId
  }

  /** The state invariant: a well-formed cache of capacity 250, posts tagged
      with their positions, and every cached key the id of some post. */
  predicate Inv(s: State)
  {
    && Lru.Valid(s.cache)
    && s.cache.capacity == CacheCapacity
    && PostsIndexed(s.posts)
    && Lru.Keys(s.cache) <= Ids(s.posts)
  }

  /** The cache never holds more than 250 entries. */
  lemma CacheBounded(s: State)
    requires Inv(s)
    ensures |Lru.Keys(s.cache)| <= CacheCapacity
    ensures |s.cache.entries| <= CacheCapacity
  {
    Lru.SizeBound(s.cache);
  }

  /* ---------- construction and reset ---------- */

  /** `State::new(feed)`; the options are given rather than read from disk. */
  function New(feed: PostFeed, options: Config.Options): (s: State)
    ensures Inv(s)
    ensures s.feed == Some(feed) && s.posts == [] && s.activeFilters == []
    ensures Lru.Keys(s.cache) == {} && s.markForRefresh
    ensures s.numRequestDisableBinds == 0 && s.options == options
  {
    State(Some(feed), [], [], Lru.New(CacheCapacity), 0, true, options)
  }

  /** `reset_feed`: switch to a new feed, dropping every post and all cached
      content, and ask for a refresh. */
  function ResetFeed(s: State, newFeed: PostFeed): (r: State)
    requires Lru.Valid(s.cache)
    ensures r.feed == Some(newFeed)
    ensures r.posts == [] && Lru.Keys(r.cache) == {}
    ensures r.cache.capacity == s.cache.capacity
    ensures r.markForRefresh
    ensures r.activeFilters == s.activeFilters && r.options == s.options
    ensures r.numRequestDisableBinds == s.numRequestDisableBinds
    ensures s.cache.capacity == CacheCapacity ==> Inv(r)
  {
    s.(feed := Some(newFeed), posts := [], cache := Lru.Clear(s.cache), markForRefresh := true)
  }

  /** `set_feed`: install the first feed, with a page size of 15. The source
      asserts that no feed is set yet. */
  function SetFeed(s: State, feed: PostFeed): (r: State)
    requires s.feed.None?
    ensures r.feed.Some? && r.feed.value.source == feed.source
    ensures r.feed.value.limit == FeedPageLimit
    ensures r == s.(feed := r.feed)
  {
    s.(feed := Some(feed.(limit := FeedPageLimit)))
  }

  /* ---------- posts ---------- */

  /** The new posts tagged with consecutive ids from `start`. */
  function Tag(start: nat, ps: seq<Post>): (r: seq<ViewablePost>)
    ensures |r| == |ps|
    ensures forall k :: 0 <= k < |ps| ==> r[k] == ViewablePost(start + k, ps[k])
    decreases |ps|
  {
    if |ps| == 0 then []
    else [ViewablePost(start, ps[0])] + Tag(start + 1, ps[1..])
  }

  /** `extend_posts`: append the posts of a new page, each tagged with its
      running position. Existing posts are untouched. */
  function ExtendPosts(s: State, newPosts: seq<Post>): (r: State)
    ensures |r.posts| == |s.posts| + |newPosts|
    ensures r.posts[..|s.posts|] == s.posts
    ensures forall k :: 0 <= k < |newPosts| ==>
              r.posts[|s.posts| + k] == ViewablePost(|s.posts| + k, newPosts[k])
    ensures r == s.(posts := r.posts)
    ensures Inv(s) ==> Inv(r)
  {
    var r := s.(posts := s.posts + Tag(|s.posts|, newPosts));
    assert r.posts[..|s.posts|] == s.posts;
    assert Ids(s.posts) <= Ids(r.posts) by {
      forall id | id in Ids(s.posts) ensures id in Ids(r.posts) {
        var p :| p in s.posts && p.postId == id;
        assert p in r.posts;
      }
    }
    r
  }

  /* ---------- filters ---------- */

  /** `Iterator::filter` with one filter: the accepted posts, in order. */
  function Keep(posts: seq<ViewablePost>, f: Filter): (r: seq<ViewablePost>)
    ensures |r| <= |posts|
    ensures forall p :: p in r <==> p in posts && f(p)
  {
    if |posts| == 0 then []
    else (if f(posts[0]) then [posts[0]] else []) + Keep(posts[1..], f)
  }

  /** `filter_posts`: the post iterator wrapped in one `filter` adaptor per
      active filter, the first filter innermost. */
  function FilterPosts(posts: seq<ViewablePost>, filters: seq<Filter>): (r: seq<ViewablePost>)
    ensures |r| <= |posts|
    ensures forall p :: p in r <==> p in posts && PassesAll(p, filters)
    decreases |filters|
  {
    if |filters| == 0 then posts
    else
      var init, last := filters[..|filters| - 1], filters[|filters| - 1];
      assert init + [last] == filters;
      PassesAllSnoc(init, last);
      Keep(FilterPosts(posts, init), last)
  }

  predicate PassesAll(p: ViewablePost, filters: seq<Filter>)
  {
    forall i :: 0 <= i < |filters| ==> filters[i](p)
  }

  /** Passing one more filter is passing the earlier ones and that one. */
  lemma PassesAllSnoc(filters: seq<Filter>, f: Filter)
    ensures forall p :: PassesAll(p, filters + [f]) <==> PassesAll(p, filters) && f(p)
  {
    forall p ensures PassesAll(p, filters + [f]) <==> PassesAll(p, filters) && f(p) {
      if PassesAll(p, filters) && f(p) {
        forall i | 0 <= i < |filters + [f]| ensures (filters + [f])[i](p) {
          if i < |filters| { assert (filters + [f])[i] == filters[i]; }
        }
      }
      if PassesAll(p, filters + [f]) {
        forall i | 0 <= i < |filters| ensures filters[i](p) {
          assert (filters + [f])[i] == filters[i];
        }
        assert (filters + [f])[|filters|] == f;
      }
    }
  }

  /** Reference definition: a single pass keeping the posts that every filter
      accepts. */
  function KeepAll(posts: seq<ViewablePost>, filters: seq<Filter>): seq<ViewablePost>
  {
    if |posts| == 0 then []
    else (if PassesAll(posts[0], filters) then [posts[0]] else []) + KeepAll(posts[1..], filters)
  }

  /** `a` is `b` with some elements left out, the rest in their order. */
  predicate IsSubsequence(a: seq<ViewablePost>, b: seq<ViewablePost>)
    decreases |b|
  {
    if |a| == 0 then true
    else if |b| == 0 then false
    else if a[0] == b[0] then IsSubsequence(a[1..], b[1..])
    else IsSubsequence(a, b[1..])
  }

  lemma {:induction false} KeepAfterKeepAll(posts: seq<ViewablePost>, filters: seq<Filter>, f: Filter)
    ensures Keep(KeepAll(posts, filters), f) == KeepAll(posts, filters + [f])
  {
    if |posts| > 0 {
      KeepAfterKeepAll(posts[1..], filters, f);
      var p := posts[0];
      PassesAllSnoc(filters, f);
      var head := if PassesAll(p, filters) then [p] else [];
      var rest := KeepAll(posts[1..], filters);
      assert KeepAll(posts, filters) == head + rest;
      KeepAppend(head, rest, f);
    }
  }

  lemma {:induction false} KeepAppend(a: seq<ViewablePost>, b: seq<ViewablePost>, f: Filter)
    ensures Keep(a + b, f) == Keep(a, f) + Keep(b, f)
  {
    if |a| > 0 {
      assert (a + b)[1..] == a[1..] + b;
      KeepAppend(a[1..], b, f);
    } else {
      assert a + b == b;
    }
  }

  /** Stacking one `filter` adaptor per active filter keeps exactly the posts
      that pass every filter, in their original order; with no filters every
      post is kept. */
  lemma {:induction false} FilterIsConjunction(posts: seq<ViewablePost>, filters: seq<Filter>)
    ensures FilterPosts(posts, filters) == KeepAll(posts, filters)
    decreases |filters|
  {
    if |filters| == 0 {
      KeepAllNoFilters(posts);
    } else {
      var init := filters[..|filters| - 1];
      FilterIsConjunction(posts, init);
      KeepAfterKeepAll(posts, init, filters[|filters| - 1]);
      assert init + [filters[|filters| - 1]] == filters;
    }
  }

  lemma {:induction false} KeepAllNoFilters(posts: seq<ViewablePost>)
    ensures KeepAll(posts, []) == posts
  {
    if |posts| > 0 {
      KeepAllNoFilters(posts[1..]);
      assert posts == [posts[0]] + posts[1..];
    }
  }

  /** The filtered posts are exactly the posts passing every filter, and they
      keep their relative order. */
  lemma {:induction false} KeepAllSpec(posts: seq<ViewablePost>, filters: seq<Filter>)
    ensures forall p :: p in KeepAll(posts, filters) <==> p in posts && PassesAll(p, filters)
    ensures IsSubsequence(KeepAll(posts, filters), posts)
  {
    if |posts| > 0 {
      KeepAllSpec(posts[1..], filters);
      assert posts == [posts[0]] + posts[1..];
      var rest := KeepAll(posts[1..], filters);
      if PassesAll(posts[0], filters) {
        assert KeepAll(posts, filters) == [posts[0]] + rest;
        assert KeepAll(posts, filters)[1..] == rest;
      } else {
        assert KeepAll(posts, filters) == rest;
        SubsequenceOfTail(rest, posts);
      }
    }
  }

  lemma {:induction false} SubsequenceOfTail(a: seq<ViewablePost>, b: seq<ViewablePost>)
    requires |b| > 0
    requires IsSubsequence(a, b[1..])
    ensures IsSubsequence(a, b)
    decreases |b|
  {
    if |a| > 0 && a[0] == b[0] {
      SubsequenceDropHead(a, b[1..]);
      SubsequenceOfTail(a[1..], b[1..]);
    }
  }

  lemma {:induction false} SubsequenceDropHead(a: seq<ViewablePost>, b: seq<ViewablePost>)
    requires |a| > 0
    requires IsSubsequence(a, b)
    ensures |b| > 0 && IsSubsequence(a[1..], b[1..])
    decreases |b|
  {
    if a[0] != b[0] {
      SubsequenceDropHead(a, b[1..]);
      SubsequenceOfTail(a[1..], b[1..]);
    }
  }

  /** Filtering keeps ids increasing. */
  lemma {:induction false} KeepIncreasing(posts: seq<ViewablePost>, f: Filter)
    requires IdsIncreasing(posts)
    ensures IdsIncreasing(Keep(posts, f))
  {
    if |posts| > 0 {
      KeepIncreasing(posts[1..], f);
      var rest := Keep(posts[1..], f);
      forall q | q in rest ensures posts[0].postId < q.postId {
        var j :| 0 <= j < |posts[1..]| && posts[1..][j] == q;
        assert posts[j + 1] == q;
      }
    }
  }

  lemma {:induction false} FilterIncreasing(posts: seq<ViewablePost>, filters: seq<Filter>)
    requires IdsIncreasing(posts)
    ensures IdsIncreasing(FilterPosts(posts, filters))
    ensures Ids(FilterPosts(posts, filters)) <= Ids(posts)
    decreases |filters|
  {
    if |filters| > 0 {
      var inner := FilterPosts(posts, filters[..|filters| - 1]);
      FilterIncreasing(posts, filters[..|filters| - 1]);
      KeepIncreasing(inner, filters[|filters| - 1]);
    }
  }

  /** The posts the UI works with: all posts through the active filters. */
  function WorkingPosts(s: State): (r: seq<ViewablePost>)
    ensures |r| <= |s.posts|
    ensures forall p {:trigger p in r} :: p in r <==> p in s.posts && PassesAll(p, s.activeFilters)
  {
    FilterPosts(s.posts, s.activeFilters)
  }

  /** `unfiltered_len`: the number of posts, filters ignored. */
  function UnfilteredLen(s: State): nat
  {
    |s.posts|
  }

  lemma {:induction false} FilterShorter(posts: seq<ViewablePost>, filters: seq<Filter>)
    ensures |FilterPosts(posts, filters)| <= |posts|
    decreases |filters|
  {
    if |filters| > 0 {
      FilterShorter(posts, filters[..|filters| - 1]);
    }
  }

  /** The working posts are the posts passing every active filter, in feed
      order, and never more than `unfiltered_len` of them; the order in
      which the filters are stacked does not matter. */
  lemma WorkingPostsSpec(s: State)
    ensures |WorkingPosts(s)| <= UnfilteredLen(s)
    ensures forall p :: p in WorkingPosts(s) <==> p in s.posts && PassesAll(p, s.activeFilters)
    ensures IsSubsequence(WorkingPosts(s), s.posts)
    ensures s.activeFilters == [] ==> WorkingPosts(s) == s.posts
  {
    FilterShorter(s.posts, s.activeFilters);
    FilterIsConjunction(s.posts, s.activeFilters);
    KeepAllSpec(s.posts, s.activeFilters);
  }

  /* ---------- buffering ---------- */

  /** The window `buffer_posts` computes over the working posts, or `None`
      where `current_buffer` would panic. */
  function BufferSpan(s: State, viewed: nat): Option<Window.Span>
  {
    Window.CurrentBuffer(|WorkingPosts(s)|, viewed, s.options.bufferAmount, s.options.bufferRatio)
  }

  function BufferWindow(s: State, viewed: nat): (w: seq<ViewablePost>)
    requires BufferSpan(s, viewed).Some?
  {
    var span := BufferSpan(s, viewed).value;
    WorkingPosts(s)[span.lo..span.hi]
  }

  /** The ids of window posts not cached in `cache`, in window order. */
  function Uncached(cache: ContentCache, window: seq<ViewablePost>): seq<PostId>
  {
    if |window| == 0 then []
    else (if window[0].postId in Lru.Keys(cache) then [] else [window[0].postId])
         + Uncached(cache, window[1..])
  }

  predicate NoDuplicates(ids: seq<PostId>)
  {
    forall i, j :: 0 <= i < j < |ids| ==> ids[i] != ids[j]
  }

  /**
   * The loop of `buffer_posts`: for each window post in turn, if its id is not
   * a cache key (`contains`, which does not promote) it is `put` as pending
   * and its id is dispatched. A `put` into a full cache evicts the least
   * recently used entry, which may be a window post checked earlier.
   */
  function Dispatch(cache: ContentCache, window: seq<ViewablePost>): (r: (ContentCache, seq<PostId>))
    requires Lru.Valid(cache)
    ensures Lru.Valid(r.0) && r.0.capacity == cache.capacity
    decreases |window|
  {
    if |window| == 0 then (cache, [])
    else if Lru.Contains(cache, window[0].postId) then Dispatch(cache, window[1..])
    else
      var rest := Dispatch(Lru.Put(cache, window[0].postId, None), window[1..]);
      (rest.0, [window[0].postId] + rest.1)
  }

  lemma IdsCons(window: seq<ViewablePost>)
    requires |window| > 0
    ensures Ids(window) == {window[0].postId} + Ids(window[1..])
    ensures forall p :: p in window <==> p == window[0] || p in window[1..]
  {
    assert window == [window[0]] + window[1..];
  }

  /** Only window posts are fetched, and every window post not cached
      beforehand is. */
  lemma {:induction false} DispatchCoverage(cache: ContentCache, window: seq<ViewablePost>)
    requires Lru.Valid(cache)
    ensures forall id :: id in Dispatch(cache, window).1 ==> id in Ids(window)
    ensures forall p :: p in window && p.postId !in Lru.Keys(cache) ==>
              p.postId in Dispatch(cache, window).1
    decreases |window|
  {
    if |window| > 0 {
      var id := window[0].postId;
      IdsCons(window);
      if Lru.Contains(cache, id) {
        DispatchCoverage(cache, window[1..]);
      } else {
        var put := Lru.Put(cache, id, None);
        DispatchCoverage(put, window[1..]);
        assert Lru.Keys(put) <= Lru.Keys(cache) + {id};
      }
    }
  }

  /** The only new keys are fetched ones, those that remain are pending, and
      entries not fetched keep their values while they stay cached. */
  lemma {:induction false} DispatchValues(cache: ContentCache, window: seq<ViewablePost>)
    requires Lru.Valid(cache)
    ensures var r := Dispatch(cache, window);
            && Lru.Keys(r.0) <= Lru.Keys(cache) + (set id | id in r.1)
            && (forall id :: id in r.1 && id in Lru.Keys(r.0) ==> Lru.Peek(r.0, id) == Some(None))
            && (forall id :: id !in r.1 && id in Lru.Keys(r.0) ==>
                  Lru.Peek(r.0, id) == Lru.Peek(cache, id))
    decreases |window|
  {
    if |window| > 0 {
      var id := window[0].postId;
      if Lru.Contains(cache, id) {
        DispatchValues(cache, window[1..]);
      } else {
        var put := Lru.Put(cache, id, None);
        DispatchValues(put, window[1..]);
        var rest := Dispatch(put, window[1..]);
        assert Dispatch(cache, window) == (rest.0, [id] + rest.1);
        assert Lru.Keys(put) <= Lru.Keys(cache) + {id};
        forall k | k !in [id] + rest.1 && k in Lru.Keys(rest.0)
          ensures Lru.Peek(rest.0, k) == Lru.Peek(cache, k)
        {
          assert k in Lru.Keys(put);
        }
      }
    }
  }

  /** A cached post that no `put` of the call can reach is left alone: each
      `put` evicts at most the oldest entry, so an entry with at least
      `|window|` entries older than it is neither fetched nor changed. */
  lemma {:induction false} DispatchSparesYoung(cache: ContentCache, window: seq<ViewablePost>, id: PostId)
    requires Lru.Valid(cache)
    requires id in Lru.Keys(cache)
    requires Lru.IndexOf(cache.entries, id) >= |window|
    ensures id !in Dispatch(cache, window).1
    ensures Lru.Peek(Dispatch(cache, window).0, id) == Lru.Peek(cache, id)
    decreases |window|
  {
    if |window| > 0 {
      var first := window[0].postId;
      if Lru.Contains(cache, first) {
        DispatchSparesYoung(cache, window[1..], id);
      } else {
        var es := cache.entries;
        var put := Lru.Put(cache, first, None);
        var kept := if |es| >= cache.capacity then es[1..] else es;
        assert put.entries == kept + [(first, None)];
        assert id in Lru.KeysOf(kept) && Lru.IndexOf(kept, id) >= |window| - 1 by {
          if |es| >= cache.capacity {
            assert es[0].0 != id;
          }
        }
        Lru.IndexAppend(kept, (first, None), id);
        DispatchSparesYoung(put, window[1..], id);
      }
    }
  }

  /** `DispatchSparesYoung` for every such entry at once. */
  lemma DispatchSparesAllYoung(cache: ContentCache, window: seq<ViewablePost>)
    requires Lru.Valid(cache)
    ensures forall id :: id in Lru.Keys(cache) && Lru.IndexOf(cache.entries, id) >= |window| ==>
              id !in Dispatch(cache, window).1 && Lru.Peek(Dispatch(cache, window).0, id) == Lru.Peek(cache, id)
  {
    forall id | id in Lru.Keys(cache) && Lru.IndexOf(cache.entries, id) >= |window|
      ensures id !in Dispatch(cache, window).1 && Lru.Peek(Dispatch(cache, window).0, id) == Lru.Peek(cache, id)
    {
      DispatchSparesYoung(cache, window, id);
    }
  }

  /** A window whose ids increase gets at most one fetch per post. */
  lemma {:induction false} DispatchNoDuplicates(cache: ContentCache, window: seq<ViewablePost>)
    requires Lru.Valid(cache)
    requires IdsIncreasing(window)
    ensures NoDuplicates(Dispatch(cache, window).1)
    decreases |window|
  {
    if |window| > 0 {
      var id := window[0].postId;
      IdsCons(window);
      TailIncreasing(window);
      if Lru.Contains(cache, id) {
        DispatchNoDuplicates(cache, window[1..]);
      } else {
        var put := Lru.Put(cache, id, None);
        DispatchNoDuplicates(put, window[1..]);
        DispatchCoverage(put, window[1..]);
        var rest := Dispatch(put, window[1..]).1;
        assert id !in rest;
        var all := [id] + rest;
        forall i, j | 0 <= i < j < |all| ensures all[i] != all[j] {
          assert all[j] == rest[j - 1];
          if i > 0 { assert all[i] == rest[i - 1]; }
        }
      }
    }
  }

  lemma TailIncreasing(window: seq<ViewablePost>)
    requires |window| > 0
    requires IdsIncreasing(window)
    ensures IdsIncreasing(window[1..])
    ensures window[0].postId !in Ids(window[1..])
  {
    forall q | q in window[1..] ensures window[0].postId < q.postId {
      var j :| 0 <= j < |window[1..]| && window[1..][j] == q;
      assert window[j + 1] == q;
    }
  }

  /** `Uncached` depends only on which window ids are keys. */
  lemma {:induction false} UncachedSameKeys(c1: ContentCache, c2: ContentCache, window: seq<ViewablePost>)
    requires forall p :: p in window ==> (p.postId in Lru.Keys(c1) <==> p.postId in Lru.Keys(c2))
    ensures Uncached(c1, window) == Uncached(c2, window)
    decreases |window|
  {
    if |window| > 0 {
      IdsCons(window);
      UncachedSameKeys(c1, c2, window[1..]);
    }
  }

  /** Caching more keys can only shorten the list of uncached posts. */
  lemma {:induction false} UncachedShrinks(c1: ContentCache, c2: ContentCache, window: seq<ViewablePost>)
    requires Lru.Keys(c1) <= Lru.Keys(c2)
    ensures |Uncached(c2, window)| <= |Uncached(c1, window)|
    decreases |window|
  {
    if |window| > 0 {
      UncachedShrinks(c1, c2, window[1..]);
    }
  }

  /** When the cache has room for the uncached window posts nothing is
      evicted, so every window post ends up cached. */
  lemma {:induction false} DispatchKeysWithRoom(cache: ContentCache, window: seq<ViewablePost>)
    requires Lru.Valid(cache)
    requires |cache.entries| + |Uncached(cache, window)| <= cache.capacity
    ensures Lru.Keys(Dispatch(cache, window).0) == Lru.Keys(cache) + Ids(window)
    decreases |window|
  {
    if |window| > 0 {
      var id := window[0].postId;
      IdsCons(window);
      if Lru.Contains(cache, id) {
        DispatchKeysWithRoom(cache, window[1..]);
      } else {
        var put := Lru.Put(cache, id, None);
        assert Lru.Evicted(cache, id).None?;
        UncachedShrinks(cache, put, window[1..]);
        DispatchKeysWithRoom(put, window[1..]);
      }
    }
  }

  /** With room for the uncached window posts, the fetches are exactly
      those posts, in window order. */
  lemma {:induction false} DispatchWithRoom(cache: ContentCache, window: seq<ViewablePost>)
    requires Lru.Valid(cache)
    requires IdsIncreasing(window)
    requires |cache.entries| + |Uncached(cache, window)| <= cache.capacity
    ensures Dispatch(cache, window).1 == Uncached(cache, window)
    decreases |window|
  {
    if |window| > 0 {
      var id := window[0].postId;
      TailIncreasing(window);
      if Lru.Contains(cache, id) {
        DispatchWithRoom(cache, window[1..]);
      } else {
        var put := Lru.Put(cache, id, None);
        assert Lru.Evicted(cache, id).None?;
        forall p | p in window[1..]
          ensures p.postId in Lru.Keys(put) <==> p.postId in Lru.Keys(cache)
        {
          assert p.postId in Ids(window[1..]);
        }
        UncachedSameKeys(put, cache, window[1..]);
        DispatchWithRoom(put, window[1..]);
      }
    }
  }

  /**
   * `buffer_posts`: compute the window around the viewed post over the
   * working posts and dispatch a fetch for every window post not yet cached.
   * Only the cache changes.
   */
  function BufferPosts(s: State, viewed: nat): (r: (State, seq<PostId>))
    requires Lru.Valid(s.cache)
    requires BufferSpan(s, viewed).Some?
    ensures r.0 == s.(cache := r.0.cache)
    ensures Lru.Valid(r.0.cache) && r.0.cache.capacity == s.cache.capacity
    ensures forall id :: id in r.1 ==> id in Ids(BufferWindow(s, viewed))
    ensures forall p :: p in BufferWindow(s, viewed) && p.postId !in Lru.Keys(s.cache) ==> p.postId in r.1
    ensures forall id :: id in r.1 && id in Lru.Keys(r.0.cache) ==> Lru.Peek(r.0.cache, id) == Some(None)
    ensures forall id :: id !in r.1 && id in Lru.Keys(r.0.cache) ==>
              Lru.Peek(r.0.cache, id) == Lru.Peek(s.cache, id)
    ensures Lru.Keys(r.0.cache) <= Lru.Keys(s.cache) + (set id | id in r.1)
    // A cached post with at least as many older entries as the window has
    // posts cannot be evicted by the call: it gets no fetch and keeps its value.
    ensures forall id :: id in Lru.Keys(s.cache) && Lru.IndexOf(s.cache.entries, id) >= |BufferWindow(s, viewed)| ==>
              id !in r.1 && Lru.Peek(r.0.cache, id) == Lru.Peek(s.cache, id)
  {
    var window := BufferWindow(s, viewed);
    DispatchCoverage(s.cache, window);
    DispatchValues(s.cache, window);
    DispatchSparesAllYoung(s.cache, window);
    var d := Dispatch(s.cache, window);
    (s.(cache := d.0), d.1)
  }

  lemma SliceIncreasing(ws: seq<ViewablePost>, lo: nat, hi: nat)
    requires lo <= hi <= |ws|
    requires IdsIncreasing(ws)
    ensures IdsIncreasing(ws[lo..hi])
    ensures Ids(ws[lo..hi]) <= Ids(ws)
  {
    forall id | id in Ids(ws[lo..hi]) ensures id in Ids(ws) {
      var p :| p in ws[lo..hi] && p.postId == id;
      var j :| 0 <= j < hi - lo && ws[lo..hi][j] == p;
      assert ws[lo + j] == p;
    }
  }

  /** Under the invariant the window's ids increase and are ids of posts. */
  lemma WindowFacts(s: State, viewed: nat)
    requires Inv(s)
    requires BufferSpan(s, viewed).Some?
    ensures IdsIncreasing(BufferWindow(s, viewed))
    ensures Ids(BufferWindow(s, viewed)) <= Ids(s.posts)
  {
    assert IdsIncreasing(s.posts);
    FilterIncreasing(s.posts, s.activeFilters);
    var span := BufferSpan(s, viewed).value;
    SliceIncreasing(WorkingPosts(s), span.lo, span.hi);
  }

  /** Under the invariant `buffer_posts` never dispatches two fetches for one
      post, and the invariant survives it. */
  lemma BufferPostsKeepsInv(s: State, viewed: nat)
    requires Inv(s)
    requires BufferSpan(s, viewed).Some?
    ensures Inv(BufferPosts(s, viewed).0)
    ensures NoDuplicates(BufferPosts(s, viewed).1)
  {
    var w := BufferWindow(s, viewed);
    WindowFacts(s, viewed);
    DispatchNoDuplicates(s.cache, w);
    var r := BufferPosts(s, viewed);
    assert r.1 == Dispatch(s.cache, w).1;
    assert Lru.Keys(r.0.cache) <= Ids(s.posts);
  }

  /** Buffering twice with nothing changed in between dispatches nothing the
      second time, provided the cache had room for the uncached window posts
      (so the first call evicted nothing). A full cache that already holds
      the whole window qualifies. */
  lemma BufferPostsIdempotent(s: State, viewed: nat)
    requires Inv(s)
    requires BufferSpan(s, viewed).Some?
    requires |s.cache.entries| + |Uncached(s.cache, BufferWindow(s, viewed))| <= CacheCapacity
    ensures BufferPosts(BufferPosts(s, viewed).0, viewed).1 == []
  {
    var w := BufferWindow(s, viewed);
    WindowFacts(s, viewed);
    DispatchKeysWithRoom(s.cache, w);
    var s1 := BufferPosts(s, viewed).0;
    assert WorkingPosts(s1) == WorkingPosts(s);
    assert BufferWindow(s1, viewed) == w;
    assert Lru.Keys(s1.cache) == Lru.Keys(s.cache) + Ids(w);
    AllCachedNoneFetched(s1.cache, w);
  }

  /** With room in the cache for the uncached window posts, `buffer_posts`
      fetches exactly those posts in window order, and afterwards the whole
      window is cached. */
  lemma BufferPostsWithRoom(s: State, viewed: nat)
    requires Inv(s)
    requires BufferSpan(s, viewed).Some?
    requires |s.cache.entries| + |Uncached(s.cache, BufferWindow(s, viewed))| <= CacheCapacity
    ensures BufferPosts(s, viewed).1 == Uncached(s.cache, BufferWindow(s, viewed))
    ensures Lru.Keys(BufferPosts(s, viewed).0.cache) == Lru.Keys(s.cache) + Ids(BufferWindow(s, viewed))
  {
    var w := BufferWindow(s, viewed);
    WindowFacts(s, viewed);
    DispatchWithRoom(s.cache, w);
    DispatchKeysWithRoom(s.cache, w);
  }

  /** A second call fetches nothing exactly when the first one left the
      whole window cached, whether or not the first call evicted anything. */
  lemma SecondCallFree(s: State, viewed: nat)
    requires Lru.Valid(s.cache)
    requires BufferSpan(s, viewed).Some?
    ensures BufferPosts(BufferPosts(s, viewed).0, viewed).1 == [] <==>
              Ids(BufferWindow(s, viewed)) <= Lru.Keys(BufferPosts(s, viewed).0.cache)
  {
    var w := BufferWindow(s, viewed);
    var s1 := BufferPosts(s, viewed).0;
    assert WorkingPosts(s1) == WorkingPosts(s);
    assert BufferWindow(s1, viewed) == w;
    DispatchCoverage(s1.cache, w);
    if Ids(w) <= Lru.Keys(s1.cache) {
      AllCachedNoneFetched(s1.cache, w);
    } else {
      var id :| id in Ids(w) && id !in Lru.Keys(s1.cache);
      var p :| p in w && p.postId == id;
      assert p.postId in BufferPosts(s1, viewed).1;
    }
  }

  lemma {:induction false} AllCachedNoneFetched(cache: ContentCache, window: seq<ViewablePost>)
    requires Lru.Valid(cache)
    requires Ids(window) <= Lru.Keys(cache)
    ensures Dispatch(cache, window).1 == []
    decreases |window|
  {
    if |window| > 0 {
      assert window[0] in window;
      assert Ids(window[1..]) <= Ids(window) by {
        forall id | id in Ids(window[1..]) ensures id in Ids(window) {
          var p :| p in window[1..] && p.postId == id;
          assert p in window;
        }
      }
      AllCachedNoneFetched(cache, window[1..]);
    }
  }

  /** Without room, `contains` not promoting lets a cached window post be
      evicted by a later `put` of the same call, and the next call fetches it
      again: with capacity 2 holding post 1 (oldest) and post 9, buffering
      posts 1 and 2 fetches 2 and evicts 1; buffering again fetches 1. */
  lemma RefetchAfterEviction()
    ensures var c: ContentCache := Lru.Cache(2, [(1, Some(Text("a"))), (9, None)]);
            var w := [ViewablePost(1, Post("", "", "", 0)), ViewablePost(2, Post("", "", "", 0))];
            var first := Dispatch(c, w);
            && first.1 == [2]
            && 1 !in Lru.Keys(first.0)
            && Dispatch(first.0, w).1 == [1]
  {
    var c: ContentCache := Lru.Cache(2, [(1, Some(Text("a"))), (9, None)]);
    var p1, p2 := ViewablePost(1, Post("", "", "", 0)), ViewablePost(2, Post("", "", "", 0));
    var w := [p1, p2];
    assert w[1..] == [p2] && [p2][1..] == [];
    // First call: 1 is cached, 2 is not; putting 2 into the full cache evicts 1.
    assert Lru.Keys(c) == {1, 9} && Lru.Evicted(c, 2) == Some(1);
    var c1 := Lru.Put(c, 2, None);
    assert Dispatch(c, [p2]) == (c1, [2]) by {
      assert !Lru.Contains(c, [p2][0].postId);
      assert Dispatch(c1, []) == (c1, []) && [2] + [] == [2];
    }
    // The put made 2 the most recent entry, so 9 is now the oldest.
    Lru.OldestAfterPut(c, 2, None);
    // Second call: 1 is missing again and is fetched; putting it evicts 9.
    var c2 := Lru.Put(c1, 1, None);
    assert Lru.Keys(c2) == {2, 1};
    assert Dispatch(c2, [p2]) == (c2, []);
    assert Dispatch(c1, w) == (c2, [1]) by {
      assert !Lru.Contains(c1, w[0].postId);
      assert [1] + [] == [1];
    }
  }

  /** Even a single call can fetch a post that was cached when it began:
      with capacity 2 holding resolved post 1 (oldest) and pending post 5,
      buffering posts 0 and 1 puts 0 first, which evicts 1, so 1 is then
      missing and fetched too; its resolved content is replaced by a pending
      entry. */
  lemma EvictedWithinOneCall()
    ensures var c: ContentCache := Lru.Cache(2, [(1, Some(Text("a"))), (5, None)]);
            var w := [ViewablePost(0, Post("", "", "", 0)), ViewablePost(1, Post("", "", "", 0))];
            && Resolved(c, 1)
            && Dispatch(c, w).1 == [0, 1]
            && Lru.Peek(Dispatch(c, w).0, 1) == Some(None)
  {
    var c: ContentCache := Lru.Cache(2, [(1, Some(Text("a"))), (5, None)]);
    var p0, p1 := ViewablePost(0, Post("", "", "", 0)), ViewablePost(1, Post("", "", "", 0));
    var w := [p0, p1];
    assert w[1..] == [p1] && [p1][1..] == [];
    // Putting 0 into the full cache evicts the oldest entry, post 1.
    assert Lru.Keys(c) == {1, 5} && Lru.Evicted(c, 0) == Some(1);
    var c1 := Lru.Put(c, 0, None);
    Lru.OldestAfterPut(c, 0, None);
    // Post 1 is now missing: it is put back as pending, evicting 5.
    var c2 := Lru.Put(c1, 1, None);
    assert Dispatch(c1, [p1]) == (c2, [1]) by {
      assert !Lru.Contains(c1, [p1][0].postId);
      assert Dispatch(c2, []) == (c2, []) && [1] + [] == [1];
    }
    assert Dispatch(c, w) == (c2, [0, 1]) by {
      assert !Lru.Contains(c, w[0].postId);
      assert [0] + [1] == [0, 1];
    }
  }

  /** An eviction need not cost a second fetch: with capacity 2 holding post
      9 (oldest) and post 1, buffering posts 1 and 2 fetches 2 and evicts 9,
      and buffering again fetches nothing. */
  lemma EvictionYetSecondCallFree()
    ensures var c: ContentCache := Lru.Cache(2, [(9, None), (1, Some(Text("a")))]);
            var w := [ViewablePost(1, Post("", "", "", 0)), ViewablePost(2, Post("", "", "", 0))];
            var first := Dispatch(c, w);
            && first.1 == [2]
            && 9 !in Lru.Keys(first.0)
            && Dispatch(first.0, w).1 == []
  {
    var c: ContentCache := Lru.Cache(2, [(9, None), (1, Some(Text("a")))]);
    var p1, p2 := ViewablePost(1, Post("", "", "", 0)), ViewablePost(2, Post("", "", "", 0));
    var w := [p1, p2];
    assert w[1..] == [p2] && [p2][1..] == [];
    assert Lru.Keys(c) == {9, 1} && Lru.Evicted(c, 2) == Some(9);
    var c1 := Lru.Put(c, 2, None);
    assert Dispatch(c, [p2]) == (c1, [2]) by {
      assert !Lru.Contains(c, [p2][0].postId);
      assert Dispatch(c1, []) == (c1, []) && [2] + [] == [2];
    }
    assert Lru.Keys(c1) == {1, 2};
    AllCachedNoneFetched(c1, w);
  }

  /* ---------- content ---------- */

  /** A fetch for `id` has completed and its content is cached. */
  predicate Resolved(cache: ContentCache, id: PostId)
  {
    Lru.Peek(cache, id).Some? && Lru.Peek(cache, id).value.Some?
  }

  /**
   * `set_content`: a completed fetch fills its pending entry (`get_mut`
   * promotes it). When the entry was evicted meanwhile, nothing happens. The
   * source asserts the entry is not already resolved.
   */
  function SetContent(s: State, id: PostId, content: Content): (r: State)
    requires Lru.Valid(s.cache)
    requires !Resolved(s.cache, id)
    ensures id !in Lru.Keys(s.cache) ==> r == s
    ensures id in Lru.Keys(s.cache) ==>
              && Lru.Peek(r.cache, id) == Some(Some(content))
              && Lru.MostRecent(r.cache) == id
    ensures forall k :: k != id ==> Lru.Peek(r.cache, k) == Lru.Peek(s.cache, k)
    ensures Lru.Keys(r.cache) == Lru.Keys(s.cache) && |r.cache.entries| == |s.cache.entries|
    ensures Lru.Valid(r.cache) && r.cache.capacity == s.cache.capacity
    ensures r == s.(cache := r.cache)
    ensures Inv(s) ==> Inv(r)
    // The other entries keep their recency order.
    ensures forall a, b :: a != id && b != id ==>
              (Lru.Before(r.cache.entries, a, b) <==> Lru.Before(s.cache.entries, a, b))
  {
    var got := Lru.Get(s.cache, id);
    if got.1.None? then s
    else
      Lru.UpdateKeepsAllOrder(s.cache, id, Some(content));
      s.(cache := Lru.Put(got.0, id, Some(content)))
  }

  const Placeholder: Content := Text(LoadingText)

  /**
   * The selection in `render_main_content`: the viewed working post's content
   * when it is resolved, the "Loading.." placeholder otherwise. The lookup is
   * a `get`, so it promotes the viewed post's entry.
   */
  function MainContent(s: State, viewed: nat): (r: (State, Content))
    requires Lru.Valid(s.cache)
    ensures viewed < |WorkingPosts(s)| && Resolved(s.cache, WorkingPosts(s)[viewed].postId) ==>
              r.1 == Lru.Peek(s.cache, WorkingPosts(s)[viewed].postId).value.value
    ensures !(viewed < |WorkingPosts(s)| && Resolved(s.cache, WorkingPosts(s)[viewed].postId)) ==>
              r.1 == Placeholder
    ensures viewed < |WorkingPosts(s)| && WorkingPosts(s)[viewed].postId in Lru.Keys(s.cache) ==>
              |r.0.cache.entries| > 0 && Lru.MostRecent(r.0.cache) == WorkingPosts(s)[viewed].postId
    ensures forall k :: Lru.Peek(r.0.cache, k) == Lru.Peek(s.cache, k)
    ensures Lru.Keys(r.0.cache) == Lru.Keys(s.cache) && Lru.Valid(r.0.cache)
    ensures r.0.cache.capacity == s.cache.capacity
    ensures r.0 == s.(cache := r.0.cache)
    ensures Inv(s) ==> Inv(r.0)
    // Only the viewed post moves: the other entries keep their recency order.
    ensures viewed >= |WorkingPosts(s)| ==> r.0 == s
    ensures viewed < |WorkingPosts(s)| ==>
              forall a, b :: a != WorkingPosts(s)[viewed].postId && b != WorkingPosts(s)[viewed].postId ==>
                (Lru.Before(r.0.cache.entries, a, b) <==> Lru.Before(s.cache.entries, a, b))
  {
    var working := WorkingPosts(s);
    if viewed < |working| then
      Lru.GetKeepsAllOrder(s.cache, working[viewed].postId);
      var got := Lru.Get(s.cache, working[viewed].postId);
      var shown := if got.1.Some? && got.1.value.Some? then got.1.value.value else Placeholder;
      (s.(cache := got.0), shown)
    else (s, Placeholder)
  }

  /* ---------- whole runs ---------- */

  /** One operation on the state. */
  datatype Event =
    | Reset(feed: PostFeed)
    | Install(feed: PostFeed)
    | Extend(page: seq<Post>)
    | Buffer(viewed: nat)
    | Resolve(id: PostId, content: Content)
    | Show(viewed: nat)

  /** Apply one operation; `None` where the source panics (a failed assert or
      an out-of-range slice). */
  function Step(s: State, e: Event): (r: Option<State>)
    requires Inv(s)
    // The panics: a second feed, a window slice out of range, content for an
    // already resolved post. Every other step succeeds.
    ensures e.Install? ==> (r.None? <==> s.feed.Some?)
    ensures e.Buffer? ==> (r.None? <==> BufferSpan(s, e.viewed).None?)
    ensures e.Resolve? ==> (r.None? <==> Resolved(s.cache, e.id))
    ensures e.Reset? || e.Extend? || e.Show? ==> r.Some?
    // Options and filters are never changed by these operations.
    ensures r.Some? ==> r.value.options == s.options && r.value.activeFilters == s.activeFilters
  {
    match e
    case Reset(f) => Some(ResetFeed(s, f))
    case Install(f) => if s.feed.None? then Some(SetFeed(s, f)) else None
    case Extend(page) => Some(ExtendPosts(s, page))
    case Buffer(v) => if BufferSpan(s, v).Some? then Some(BufferPosts(s, v).0) else None
    case Resolve(id, c) => if Resolved(s.cache, id) then None else Some(SetContent(s, id, c))
    case Show(v) => Some(MainContent(s, v).0)
  }

  /** Apply a sequence of operations, stopping at the first panic. */
  function Run(s: State, events: seq<Event>): (r: Option<State>)
    requires Inv(s)
    ensures r.Some? ==> Inv(r.value)
    decreases |events|
  {
    if |events| == 0 then Some(s)
    else
      StepKeepsInv(s, events[0]);
      match Step(s, events[0])
      case None => None
      case Some(s') => Run(s', events[1..])
  }

  lemma StepKeepsInv(s: State, e: Event)
    requires Inv(s)
    ensures Step(s, e).Some? ==> Inv(Step(s, e).value)
  {
    if e.Buffer? && BufferSpan(s, e.viewed).Some? {
      BufferPostsKeepsInv(s, e.viewed);
    }
  }

  /** Whatever operations run, the cache stays within 250 entries and caches
      only ids of current posts. */
  lemma RunBounded(s: State, events: seq<Event>)
    requires Inv(s)
    requires Run(s, events).Some?
    ensures |Lru.Keys(Run(s, events).value.cache)| <= CacheCapacity
    ensures Lru.Keys(Run(s, events).value.cache) <= Ids(Run(s, events).value.posts)
  {
    CacheBounded(Run(s, events).value);
  }
}

=== FILE: window.dfy ===
/**
 * The window selector `current_buffer`: which contiguous run of the visible
 * posts around the focused one should have its content fetched and cached.
 *
 * The source computes the two side lengths in `f32` and rounds them with
 * `round()` (half away from zero) before casting to `usize` (negative values
 * saturate to 0). Here the ratio is a `real`, so the side lengths are exact.
 * An out-of-range slice in the source panics; here it is `None`.
 */
module Window {
  import opened Wrappers

  /** A half-open index range `[lo, hi)`. */
  datatype Span = Span(lo: nat, hi: nat)
  {
    predicate Has(i: nat) { lo <= i < hi }
    function Size(): int { hi - lo }
  }

  /** `x.round() as usize`: nearest integer, ties away from zero; negative
      values saturate to 0. */
  function RoundToIndex(x: real): (n: nat)
    ensures x >= 0.0 ==> x - 0.5 < n as real <= x + 0.5
    ensures x <= 0.0 ==> n == 0
  {
    if x <= 0.0 then 0 else (x + 0.5).Floor
  }

  /** `right_side`: posts buffered ahead of the focused one (it included). */
  function Ahead(amount: nat, ratio: real): (n: nat)
    ensures 0.0 <= ratio <= 1.0 ==> n <= amount
    ensures ratio == 1.0 ==> n == amount
    ensures ratio <= 0.0 ==> n == 0
  {
    assert 0.0 <= ratio <= 1.0 ==> ratio * amount as real <= amount as real by {
      if 0.0 <= ratio <= 1.0 {
        assert ratio * amount as real <= 1.0 * amount as real;
      }
    }
    assert ratio <= 0.0 ==> ratio * amount as real <= 0.0;
    RoundToIndex(ratio * amount as real)
  }

  /** `left_side`: posts buffered behind the focused one. */
  function Behind(amount: nat, ratio: real): (n: nat)
    ensures 0.0 <= ratio <= 1.0 ==> n <= amount
    ensures ratio == 0.0 ==> n == amount
    ensures ratio >= 1.0 ==> n == 0
  {
    assert 0.0 <= ratio <= 1.0 ==> (1.0 - ratio) * amount as real <= amount as real by {
      if 0.0 <= ratio <= 1.0 {
        assert (1.0 - ratio) * amount as real <= 1.0 * amount as real;
      }
    }
    assert ratio >= 1.0 ==> (1.0 - ratio) * amount as real <= 0.0;
    RoundToIndex((1.0 - ratio) * amount as real)
  }

  /** For a ratio in [0, 1] both sides fit in `amount` and together round to
      `amount` or `amount + 1` (the latter when both products end in .5). */
  lemma SidesSum(amount: nat, ratio: real)
    requires 0.0 <= ratio <= 1.0
    ensures Ahead(amount, ratio) <= amount && Behind(amount, ratio) <= amount
    ensures amount <= Ahead(amount, ratio) + Behind(amount, ratio) <= amount + 1
  {
    var a := ratio * amount as real;
    var b := (1.0 - ratio) * amount as real;
    assert a + b == amount as real;
    assert 0.0 <= a <= amount as real by {
      assert ratio * amount as real <= 1.0 * amount as real;
    }
  }

  /**
   * `current_buffer(vec, idx, amount, ratio)` for a vector of length `len`:
   * the span it slices out, or `None` where the slice would panic.
   */
  function CurrentBuffer(len: nat, idx: nat, amount: nat, ratio: real): (r: Option<Span>)
    ensures r.Some? ==> r.value.lo <= r.value.hi <= len
    // Short feeds are buffered whole.
    ensures len <= amount ==> r == Some(Span(0, len))
    // Near the start the window is cut at 0 and still reaches `Ahead` past idx.
    ensures len > amount && idx < Behind(amount, ratio) && r.Some? ==>
              r.value == Span(0, idx + Ahead(amount, ratio))
    // Near the end the window stops one short of the last post.
    ensures (len > amount && idx >= Behind(amount, ratio) && idx + Ahead(amount, ratio) > len
             && r.Some?) ==> r.value == Span(idx - Behind(amount, ratio), len - 1)
    // In the interior the window runs from `Behind` before idx to `Ahead` after it.
    ensures (len > amount && idx >= Behind(amount, ratio) && idx + Ahead(amount, ratio) <= len)
              ==> r == Some(Span(idx - Behind(amount, ratio), idx + Ahead(amount, ratio)))
    // A focus index inside the sequence never makes a slice panic.
    ensures idx < len ==> r.Some?
  {
    var right := Ahead(amount, ratio);
    var left := Behind(amount, ratio);
    if len <= amount then Some(Span(0, len))
    else if idx < left then
      if idx + right <= len then Some(Span(0, idx + right)) else None
    else if idx + right > len then
      if idx - left <= len - 1 then Some(Span(idx - left, len - 1)) else None
    else Some(Span(idx - left, idx + right))
  }

  /**
   * When the feed is longer than the buffer, the focused post is in its own
   * window exactly when at least one post is buffered ahead and the window is
   * not clamped at the end around the last post: at `idx == len - 1` with two
   * or more posts ahead, the end clamp `len - 1` cuts the focus itself out.
   */
  lemma FocusCovered(len: nat, idx: nat, amount: nat, ratio: real)
    requires 0.0 <= ratio <= 1.0
    requires amount < len && idx < len
    ensures CurrentBuffer(len, idx, amount, ratio).value.Has(idx) <==>
              (Ahead(amount, ratio) >= 1 && !(idx == len - 1 && Ahead(amount, ratio) >= 2))
  {
    SidesSum(amount, ratio);
  }

  /** With the feed longer than the buffer, the last post is buffered exactly
      when the focus sits `Ahead` posts before the end; the end clamp never
      reaches it. */
  lemma LastPostBuffered(len: nat, idx: nat, amount: nat, ratio: real)
    requires 0.0 <= ratio <= 1.0
    requires amount < len && idx < len
    ensures CurrentBuffer(len, idx, amount, ratio).value.Has(len - 1) <==>
              idx + Ahead(amount, ratio) == len
  {
    SidesSum(amount, ratio);
  }

  /** The window never holds more than `amount + 1` posts; the extra one comes
      from both sides rounding their .5 up. */
  lemma WindowSize(len: nat, idx: nat, amount: nat, ratio: real)
    requires 0.0 <= ratio <= 1.0
    requires idx < len
    ensures CurrentBuffer(len, idx, amount, ratio).value.Size() <= amount + 1
  {
    SidesSum(amount, ratio);
  }

  /** A window of `amount + 1` posts does occur: amount 1 with ratio one half
      rounds both sides up. */
  lemma OversizedWindow()
    ensures CurrentBuffer(10, 5, 1, 0.5) == Some(Span(4, 6))
    ensures CurrentBuffer(10, 5, 1, 0.5).value.Size() == 2
  {
    assert Ahead(1, 0.5) == 1 && Behind(1, 0.5) == 1;
  }

  /** The default-like settings amount 10 and ratio 0.75 buffer 8 posts ahead
      and 3 behind, over a feed of 100 posts. */
  lemma TenAtThreeQuarters()
    ensures Ahead(10, 0.75) == 8 && Behind(10, 0.75) == 3
    ensures CurrentBuffer(100, 50, 10, 0.75) == Some(Span(47, 58))
    ensures CurrentBuffer(100, 1, 10, 0.75) == Some(Span(0, 9))
    ensures CurrentBuffer(100, 99, 10, 0.75) == Some(Span(96, 99))
    ensures !CurrentBuffer(100, 99, 10, 0.75).value.Has(99)
  {
    assert Ahead(10, 0.75) == 8;
    assert Behind(10, 0.75) == 3;
  }

  /** Amount 10 with ratio 0.8 buffers 8 posts ahead and 2 behind: the
      behind side is the rounded remainder 0.2 * 10, not one post. */
  lemma TenAtEightTenths()
    ensures Ahead(10, 0.8) == 8 && Behind(10, 0.8) == 2
    ensures CurrentBuffer(100, 50, 10, 0.8) == Some(Span(48, 58))
  {
    assert Ahead(10, 0.8) == 8;
    assert Behind(10, 0.8) == 2;
  }
}

=== FILE: wrappers.dfy ===
/** Option and Result datatypes standing in for Rust's `Option` and `Result`. */
module Wrappers {

  datatype Option<+T> = None | Some(value: T) {

    /** Returns the value in `Some`, or `default` for `None` (Rust's `unwrap_or`). */
    function UnwrapOr(default: T): (r: T)
      ensures Some? ==> r == value
      ensures None? ==> r == default
    {
      match this
      case Some(v) => v
      case None => default
    }
  }

  datatype Result<+T, +E> = Ok(value: T) | Err(error: E)
}
